=== FILE: README.md ===
# Simplex signal capture tool — a Dafny model

This project models the core of a command-line RTL-SDR capture tool. The tool
tunes a software-defined radio to one simplex channel and reads a block of
complex I/Q samples. It can analyse and plot those samples. It then writes
them to a WAV or raw file and, when an analyzer was requested, writes a text
report. Three Python files make up the core:

- `signal_processor.py` is the capture engine. It opens and configures the
  device, reads samples, and gates the real-time analysis. It dispatches on
  the output format, encodes WAV (interleaved, scaled `int16`) and raw
  (`complex64`) files, and provides the frequency and gain setters and the
  cleanup.
- `analyzer.py` holds the spectral analysis:
  - FFT bin frequencies, peak selection and the stable sort by power;
  - instantaneous frequency and the AM/FM/CW heuristic;
  - the analyzer's state and the text report.
- `simplex_sniffer.py` is the session driver. It validates the frequency and
  parses arguments, builds the default output name and the report name, and
  sequences the processor, analyzer, capture, report and cleanup. It maps
  every ending to an exit code.

The model is functional:

- The radio is a `Device` whose state is the log of calls made on it. The
  number of reads and closes and the last tuned frequency, gain and sample
  rate are read off that log.
- Anything the tool gets from outside is a parameter of the operation:
  - the hardware's answer to a read, and whether a file write succeeds;
  - the clock;
  - float parsing and printing;
  - float32 rounding;
  - the dB power of each FFT bin and the peak finder's local-maximum selection.
- Python's integer semantics are written out:
  - `int()` truncates toward zero (`Numbers.TruncateToInt`);
  - numpy's `int16` cast wraps (`Numbers.WrapInt16`);
  - `str.replace` replaces every occurrence (`Text.ReplaceAll`).

Modules: `Wrappers` (Option/Result), `Bytes` (little-endian words), `Numbers`,
`Text`, `SampleCodec`, `SignalAnalysis`, `SignalProcessor`, `Sniffer`.

The model follows the code where it departs from its own documentation and
from what its options suggest. The two defects listed under "## Findings"
are the exception: each is modelled as written, with a lemma that shows the
failing input, and the rest of the model uses the corrected definition. In
particular, the session (`Sniffer.ParseArgs` through `Sniffer.Main`)
describes the program with the frequency check and report name corrected;
as written, every command line ends in a usage error
(`Sniffer.ParseArgsAsWritten`). The behaviour the model keeps as written:

- WAV scaling casts `x * 32767` to `int16`, which wraps out-of-range values
  instead of saturating them (`SampleCodec.ScaleWrapsOutOfRange`).
  numpy leaves the cast of an out-of-range float unspecified. The model
  takes the two's-complement wrap.
- Real-time analysis runs only when analysis is enabled *and* an analyzer
  exists. `--plot` without `--analyze` builds an analyzer but produces
  neither analysis nor plots.
- `analysis_results` is never appended to, so every report says
  "No analysis results available.".
- The sample count is `int(duration * sample_rate)`, which truncates.
- `analyze_modulation` is never called by the capture pipeline.
- An initialisation failure after the device was opened leaves a handle
  the tool never closes. The processor is never bound, so the `finally`
  clause does not clean it up (`Sniffer.InitFailureLeaksHandle`).
- With `--analyze`, an empty buffer (`fft` refuses it) or a sample rate of
  0 (`1/self.sample_rate`) makes the peak detection raise. With `--plot` as
  well, a sample rate of 0 makes `plot_spectrum` raise, and a buffer of at
  most 512 samples makes `plot_waterfall` raise: scipy shortens the
  1024-sample segment to the buffer's length, and the 512-sample overlap is
  then not below it. The capture then fails before anything is saved and
  the session exits 1 (`SignalProcessor.CaptureSignal`).
- A WAV save at a sample rate that is not positive fails: `wave` refuses the
  frame rate.
- `--output ""` falls back to the generated name.
- Ctrl+C during the read runs `sys.exit(0)`. The resulting `SystemExit`
  passes both `except` clauses, so the session ends with exit code 0 after
  cleanup.

## Model

| member | source | states |
|---|---|---|
| Numbers.TruncateToInt | signal_processor.py:47 | `int()` of a real lies within 1 of it on the side of zero, for both signs |
| Numbers.WrapInt16 | signal_processor.py:108 | the `int16` cast keeps the value modulo 2^16 and is the identity on values that fit |
| Bytes.DecodeEncodeLE | signal_processor.py:114 | a little-endian word of any width decodes back to the value it encodes |
| Bytes.DecodeEncodeWords | signal_processor.py:124 | a buffer of fixed-width little-endian words decodes back to the same word sequence |
| Bytes.WordPosition | signal_processor.py:124 | word `i` is written, little-endian, right after the bytes of the `i` words before it |
| SampleCodec.FloatWordAt | signal_processor.py:124 | float word `j` of a `complex64` buffer occupies bytes `4j .. 4j+4` |
| SampleCodec.Interleave | signal_processor.py:103-105 | twice as many values as samples; the real part of sample k at index 2k and the imaginary part at 2k+1 |
| SampleCodec.InterleaveDeinterleave | signal_processor.py:103-105 | pairing up an even-length stream and interleaving it again gives the stream back |
| SampleCodec.DeinterleaveInterleave | signal_processor.py:103-105 | interleaving and then pairing up gives the original samples |
| SampleCodec.ScaleInRange | signal_processor.py:108 | a component in [-1, 1] scales to an int16 in [-32767, 32767] equal to the truncation of x*32767 |
| SampleCodec.ScaleQuantisation | signal_processor.py:108 | scaling then dividing by 32767 moves a normalised component less than one step, toward zero |
| SampleCodec.ScaleWrapsOutOfRange | signal_processor.py:108 | 1.5 scales to -16386 and -1.5 to 16386: out-of-range components wrap and flip sign |
| SampleCodec.WavSamples | signal_processor.py:103-108 | the PCM stream has I then Q of each sample, each scaled to int16 |
| SampleCodec.BytesInt16RoundTrip | signal_processor.py:114 | the `int16` little-endian byte image decodes to the same PCM values |
| SampleCodec.EncodeWav | signal_processor.py:110-114 | the WAV file has two channels, 16-bit width, the processor's rate as frame rate, and four bytes per sample |
| SampleCodec.DecodeWavFrames | signal_processor.py:110-114 | each 4-byte frame reads back as the complex sample (I/32767, Q/32767) |
| SampleCodec.WavRoundTrip | signal_processor.py:100-114 | a normalised capture written as WAV reads back with the same length and every component within 1/32767 |
| SampleCodec.AsComplex64 | signal_processor.py:121 | the `complex64` conversion rounds each component to float32 separately and keeps the order |
| SampleCodec.Complex64RoundTrip | signal_processor.py:121-124 | the raw byte image of a `complex64` buffer decodes to the same buffer |
| SampleCodec.Complex64Layout | signal_processor.py:124 | sample k's real part fills bytes 8k..8k+4 and its imaginary part bytes 8k+4..8k+8, little-endian |
| SampleCodec.ParseFormat | signal_processor.py:93-98 | exactly "wav" and "raw" are formats, and a recognised name is kept |
| SampleCodec.ParseFormatName | signal_processor.py:93-98 | every format's name parses back to that format |
| SampleCodec.WavFrameRate | signal_processor.py:113 | the frame rate is accepted iff it is positive, and is then the processor's rate; otherwise the error names the rate |
| SampleCodec.SaveSamples | signal_processor.py:91-126 | saving succeeds iff the format is raw, or wav at a positive rate, under the given name. A wav save at a rate that is not positive fails naming that rate. wav gives the stereo 16-bit file at the processor rate, four bytes per sample, holding the WAV encoding of the samples. raw gives the eight-byte `complex64` image of each sample. Any other format fails with that format's name |
| SampleCodec.WavSaveRoundTrip | signal_processor.py:100-114 | a WAV save succeeds iff the rate is positive, and then its frames, for normalised samples, decode to the same number of samples, each component within 1/32767 |
| SampleCodec.RawSaveRoundTrip | signal_processor.py:118-126 | a raw save holds exactly the `complex64` image of the samples |
| SignalAnalysis.FftFreq | analyzer.py:32 | with a positive rate a bin's frequency is non-negative iff the bin is in the first half (`(n-1)/2`); a low bin's frequency is `i*rate/n` |
| SignalAnalysis.FftFreqIncreasing | analyzer.py:32 | frequencies strictly increase across the positive half |
| SignalAnalysis.FindPeaks | analyzer.py:38-42 | the found bins are strictly ascending. Each one is selected and reaches the height threshold, and every selected bin at or above the threshold is found |
| SignalAnalysis.InsertByPower | analyzer.py:52 | inserting keeps every peak: the multiset is the old one plus the new peak |
| SignalAnalysis.SortByPower | analyzer.py:52 | the sort is a permutation of the peaks |
| SignalAnalysis.SortByPowerSorted | analyzer.py:52 | the sorted peaks are in non-increasing power |
| SignalAnalysis.SortByPowerStable | analyzer.py:52 | from frequency-ascending input, equal powers stay in frequency order, as Python's stable `sort(reverse=True)` keeps them |
| SignalAnalysis.PeaksOfBins | analyzer.py:45-49 | each found bin becomes one (frequency, power) pair, in order |
| SignalAnalysis.HalfSpectrumPeaks | analyzer.py:38-42 | only bins of the first half of the spectrum are candidates, and all qualifying ones are found |
| SignalAnalysis.DetectSignalPeaksSelection | analyzer.py:28-54 | at most n/2 peaks, each at or above the threshold; a pair is reported iff it is a selected first-half bin reaching the threshold |
| SignalAnalysis.DetectSignalPeaksNonNegative | analyzer.py:32-42 | with a non-negative rate every reported frequency is non-negative |
| SignalAnalysis.DetectSignalPeaksOrdered | analyzer.py:45-52 | peaks come strongest first, ties in increasing frequency |
| SignalAnalysis.DetectPeaks | analyzer.py:28-54 | the detection raises iff the buffer is empty (`fft`) or the sample rate is 0 (`1/self.sample_rate`), the empty buffer checked first; otherwise it returns the threshold peaks of the spectrum |
| SignalAnalysis.InstantaneousFrequency | analyzer.py:137 | the difference of n phases has n-1 entries (none for an empty phase). Entry k is the phase advance from k to k+1, over 2π, times the rate |
| SignalAnalysis.PhaseRateAdds | analyzer.py:137 | two consecutive phase advances, scaled, add up to the scaled advance across both |
| SignalAnalysis.InstantaneousFrequencyTelescopes | analyzer.py:137 | the instantaneous frequencies sum to the total phase change over 2π, times the rate |
| SignalAnalysis.ClassifyModulation | analyzer.py:144-149 | "Likely AM" iff amplitude std > 0.1; otherwise "Likely FM" iff frequency std > 1000 Hz; "Unknown/CW" in the remaining case |
| SignalAnalysis.AnalyzeModulation | analyzer.py:129-156 | the estimate carries the amplitude and frequency spread and the mean amplitude, classified by the same three-way rule |
| SignalAnalysis.NewAnalyzer | analyzer.py:15-19 | a new analyzer keeps its rate and bandwidth and has no results |
| SignalAnalysis.ReportLayout | analyzer.py:158-175 | when the timestamp, the bandwidth's text and the results are single lines, the report reads back as the six header lines followed by the body lines |
| SignalAnalysis.FreshReportHasNoResults | analyzer.py:163-175 | a fresh analyzer's report has seven lines: the 50-character rule is second and "No analysis results available." is last |
| SignalProcessor.CountsAppend | signal_processor.py:53 | reads and closes on a combined call log add up |
| SignalProcessor.Perform | signal_processor.py:29-32 | a device call is appended to the log. It adds one read or close only when it is one, and changes the tuned value it sets and no other |
| SignalProcessor.NewProcessor | signal_processor.py:15-41 | construction succeeds iff the device opens and accepts its settings. The processor then holds the device tuned to its fields, unread, unclosed and not capturing. A failed open has no handle, and a failed configuration leaves an opened, never-closed handle |
| SignalProcessor.SetFrequency | signal_processor.py:128-133 | without a device nothing changes. With one, the driver assignment comes first: if the driver refuses it, the call fails and the stored frequency is not updated. Otherwise the device and the field both take the new frequency, every other field and the read/close counts are kept, and the tuned state stays in sync |
| SignalProcessor.SetGainDb | signal_processor.py:135-140 | without a device nothing changes. With one, a refused gain fails the call before the stored gain is updated. Otherwise the device and the field take the new gain, everything else is kept, and the tuned state stays in sync |
| SignalProcessor.Cleanup | signal_processor.py:142-146 | with a device exactly one close is added and nothing is read or retuned; without one nothing happens |
| SignalProcessor.CleanupTwiceClosesTwice | signal_processor.py:142-146 | the handle is kept after cleanup, so a second cleanup calls the driver's `close()` again; the tool itself cleans up once |
| SignalProcessor.NumSamples | signal_processor.py:47 | the sample count is duration × rate truncated toward zero |
| SignalProcessor.DefaultCaptureSize | signal_processor.py:47 | one second at the default rate is 2048000 samples and the default 30 s is 61440000 |
| SignalProcessor.TopPeaks | signal_processor.py:80-84 | at most five lines, each the i-th peak's power at centre + offset, in MHz |
| SignalProcessor.TopPeaksAreStrongest | signal_processor.py:82 | from power-sorted peaks, every shown peak is at least as strong as every peak left out |
| SignalProcessor.WaterfallRaisesShort | analyzer.py:96-108 | the waterfall's spectrogram (segment 1024, overlap 512) raises exactly on buffers of at most 512 samples |
| SignalProcessor.RealtimeAnalysis | signal_processor.py:70-89 | the peak detection raises iff the buffer is empty or the analyzer's rate is 0, and then nothing is logged or plotted. Otherwise the top five detected peaks are logged first, at their absolute frequencies. With plotting, the spectrum plot then raises iff the processor's rate is 0 (analyzer.py:71), and the waterfall raises iff the buffer has at most 512 samples. A plot that raises leaves only the steps before it. The run fails iff the detection or a plot raises |
| SignalProcessor.PeakSteps | signal_processor.py:80-89 | the log of the top peaks comes first. With plotting it is followed by the spectrum plot iff the rate is non-zero, then by the waterfall iff the buffer is also long enough; the first plot refused is the error. Nothing is read or saved |
| SignalProcessor.AnalysisSteps | signal_processor.py:56-57 | the analysis fails iff it runs (enabled and an analyzer exists) and its detection or a requested plot raises. The peaks are logged iff it runs and the detection does not raise, and plots also need plotting and a non-zero processor rate. Nothing is read or saved here |
| SignalProcessor.AfterRead | signal_processor.py:56-62 | after the read, a raising analysis fails the capture and nothing is saved. Otherwise saving succeeds iff the format is raw or wav at a positive rate and the write succeeds; it then returns the samples, and the last step saves exactly what `_save_samples` produces. An unknown format fails with its name, a wav save at a rate that is not positive with that rate, and a failed write as a write failure |
| SignalProcessor.CaptureSignal | signal_processor.py:43-68 | for every finite duration, the capture flag is cleared on every path and nothing but the device changes. Without a device it fails before reading. Otherwise exactly one read of `int(duration*rate)` samples comes first. It succeeds iff the read delivers, the analysis (if it runs) raises neither in the detection nor in a plot, the format is raw or wav at a positive rate, and the write works; it returns the samples read. A failed read, an interrupted read, a raising analysis and a refused WAV frame rate are each reported as such. Tuning stays in sync |
| SignalProcessor.AnalysisGate | signal_processor.py:53-57 | the peaks are logged iff the device delivered, analysis is enabled, an analyzer was given and the detection does not raise. Plots are drawn iff the peaks were logged, plotting is enabled and the processor's rate is non-zero |
| SignalProcessor.SaveIsLast | signal_processor.py:57-62 | nothing is saved before the last step, and the capture succeeds iff its last step is a save |
| SignalProcessor.UnknownFormatFailsAfterRead | signal_processor.py:53-60 | when the analysis (detection and plots) does not raise, an unknown format is only rejected after the hardware was read once, and nothing is saved |
| Sniffer.ValidateFrequencyAsWritten | simplex_sniffer.py:25-44 | as written, the check receives argparse's raw string and cannot compare it with a number; an actual float passes iff 30 ≤ f ≤ 3000 |
| Sniffer.EveryFrequencyRejectedAsWritten | simplex_sniffer.py:25-44 | every `--freq` text, "446.056" included, is rejected |
| Sniffer.ParseArgsAsWritten | simplex_sniffer.py:44 | as written, argument parsing rejects every command line with a frequency error, whatever `--freq` says |
| Sniffer.ValidateFrequency | simplex_sniffer.py:25-29 | a frequency in MHz passes iff 30 ≤ f ≤ 3000 and is returned unchanged; otherwise the error names it |
| Sniffer.ValidateFrequencyExamples | simplex_sniffer.py:25-29 | the usage examples' frequencies and both bounds pass, and 29.999 and 3000.001 fail |
| Sniffer.DefaultOutputName | simplex_sniffer.py:86-89 | the generated name is "simplex_capture_", then the frequency text with every '.' as '_', then "MHz_", the timestamp and "." + format |
| Sniffer.ReportNameAsWritten | simplex_sniffer.py:129-130 | as written, a name with no '.' is reused unchanged for the report |
| Sniffer.ReportOverwritesCapture | simplex_sniffer.py:130 | as written, capture "capture" in wav format gets the report name "capture", so the report is written over the capture |
| Sniffer.ReportNameReplacesEvery | simplex_sniffer.py:130 | every ".wav" in the name is replaced, not only the extension, both as written and corrected |
| Sniffer.ReportName | simplex_sniffer.py:130 | the report name always differs from the capture's name. Whenever the as-written replacement changes the name it is kept, and a dotless name gets "_report.txt" appended |
| Sniffer.ReportBesideCapture | simplex_sniffer.py:130 | capture "capture" gets the report "capture_report.txt" |
| Sniffer.ReportNameOfDefault | simplex_sniffer.py:130 | for a generated name (timestamp without dots) both report names swap the extension for "_report.txt" |
| Sniffer.ParseArgs | simplex_sniffer.py:43-69 | the arguments are accepted iff the frequency parses and is in range and the format is one of the two choices; every option is carried over |
| Sniffer.ChooseOutput | simplex_sniffer.py:85-89 | a given non-empty output name is used; an absent or empty one is replaced by the generated name |
| Sniffer.MakeAnalyzer | simplex_sniffer.py:104-107 | an analyzer exists iff `--analyze` or `--plot`, with the sample rate and the bandwidth in Hz (kHz × 1000) and no results |
| Sniffer.Conclude | simplex_sniffer.py:125-136 | exit 0 iff the capture succeeded and any report was written, or the read was interrupted; exit 1 otherwise. A report is written iff capture succeeded, an analyzer exists and writing works. Its name differs from the capture's, and is line 130's replacement whenever that replacement changes the name |
| Sniffer.RunCapture | simplex_sniffer.py:105-139 | with an open device, exactly one read and one close happen and the format's name is never rejected. The peaks are logged iff the read delivered, `--analyze` is set and the detection does not raise (a non-empty buffer at a non-zero rate). Plots also need `--plot` and a non-zero processor rate. The exit code is 0 iff the read was interrupted, or all of these hold: it delivered; if asked, the detection and the plots did not raise; the format and rate are saveable; the write worked; and any report was written |
| Sniffer.Main | simplex_sniffer.py:31-139 | Exit codes: 2 iff the arguments are rejected, and then nothing is touched. 0 iff the device initialised and either the capture (with any analysis, plots and report) succeeded or the read was interrupted; an analysis or plot that raises ends with 1, and so does a WAV save at a rate that is not positive. 1 otherwise. With a processor the device is read once and closed once. Analyzer and report facts: an analyzer exists iff a processor does and `--analyze`/`--plot` is given; a report needs an analyzer and a successful capture and never takes the capture's name |
| Sniffer.InitFailureLeaksHandle | simplex_sniffer.py:94-139 | when the device opens but rejects a setting, the session exits 1 with an opened handle that is never closed |
| Sniffer.SessionReportHasNoResults | simplex_sniffer.py:129-130 | any report a session writes has seven lines and ends with "No analysis results available." |
| Text.ReplaceAllAbsent | simplex_sniffer.py:130 | `str.replace` leaves a string without the pattern unchanged |
| Text.ReplaceCharPointwise | simplex_sniffer.py:88 | replacing one character by another maps the string position by position |
| Text.ReplaceAllSuffix | simplex_sniffer.py:130 | a pattern only at the end of a string is replaced there |
| Text.IntToString | analyzer.py:166 | `str()` of an integer is its canonical decimal text: '-' for negatives, then at least one digit and no leading zero (so 0 is "0"), and it reads back as the number |
| Text.ParseNatToString | analyzer.py:166 | the decimal text of a natural parses back to it |
| Text.SplitConcatLines | analyzer.py:162-175 | newline-terminated single lines split back into the same lines |

## Left out

- FFT, `np.log10`, `np.abs`, Hilbert transform, `np.unwrap`, `np.std`, `np.mean`: floating-point numerics; the power spectrum and the statistics are parameters.
- SignalAnalysis.FindPeaks: `find_peaks`'s local-maximum and minimum-distance rules are a selection predicate passed in; only the height threshold is modelled.
- `calculate_rssi` (analyzer.py:21-26): a logged value computed by floating-point numerics that affects nothing else.
- `apply_bandpass_filter` (analyzer.py:56-65): a Butterworth filter design, floating-point numerics, and the tool never calls it.
- `plot_spectrum`, `plot_waterfall` (analyzer.py:67-127): matplotlib output. A plot is a step in the capture's trace, and the two ways a plot raises on the tool's input are modelled (a rate of 0, a buffer of at most 512 samples). Failures inside matplotlib and the PNG write are not.
- Logging, the disclaimer banner and `logger_utils.py`: output only.
- The RIFF/WAV header bytes and the file system: a saved file is the record of what the `wave` module and `open` receive.
- float32 rounding: the raw format takes the float32 conversion as a parameter. The WAV path treats as exact reals both the float32 storage of each component (`np.empty(..., dtype=np.float32)`) and the float32 product `x * 32767`.
- SampleCodec.WavRoundTrip: the one-step error bound assumes exact components and products, because the WAV path's float32 rounding is not modelled.
- SampleCodec.WavSaveRoundTrip: the same bound, resting on the same assumption.
- Byte order: numpy's `tobytes()` writes the machine's native order; the model takes little-endian, the order of every x86 and ARM host the tool targets.
- float64 products: `freq * 1e6` and `filter_range * 1000` are exact real products here, although float64 can round them (`0.1 * 3` is `0.30000000000000004`). `duration * sample_rate` is exact in a session, where argparse delivers both as `int`, but `capture_signal` given a float duration can round it before `int()` truncates.
- SignalAnalysis.AnalyzeModulation: scipy's `hilbert` raises "x must be real." on complex input, so on the tool's complex I/Q captures the function only raises. The model states the classification for the real-valued input `hilbert` accepts; the method is never called by the tool.
- Sniffer.ParseArgs: checks `--freq` with the corrected `Sniffer.ValidateFrequency` (see "## Findings"); as written every command line is rejected (`Sniffer.ParseArgsAsWritten`).
- Sniffer.Conclude: names the report with the corrected `Sniffer.ReportName`; as written a dotless output name gets the report written over the capture (`Sniffer.ReportOverwritesCapture`).
- Sniffer.RunCapture: describes the corrected program, since it uses `Sniffer.Conclude`; as written it is unreachable because parsing always fails.
- Sniffer.Main: describes the corrected program; as written every session exits 2 before any device is opened.
- The RTL-SDR driver's own checks: which settings, reads and frequencies the driver refuses is a parameter (`InitResponse`, `ReadResponse`, the setters' `accepted`).
- Float parsing and `str(float)`, `datetime.now()`: parameters of the session.
- `--gain`, `--sample-rate`, `--duration`, `--device-index`, `--filter-range`, `--log-level`: argparse's conversions of these options arrive already converted; their conversion errors are not modelled.
- Ctrl+C outside the hardware read: only an interrupt during `read_samples` is modelled.
- A non-finite `duration` (NaN, infinity) cannot be represented by reals. With one, `int(duration * self.sample_rate)` raises before the `try` of `capture_signal`, so nothing is read and `is_capturing` stays set. The model's "flag cleared on every path" holds only for finite durations.
- SampleCodec.SaveSamples: a refused WAV frame rate is modelled as a failure with no file. `wave.open` has already created the file when `setframerate` raises, and the model does not record that file.

## Findings

| source | as written | input that shows it | evidently intended | confidence | as-written member | corrected member |
|---|---|---|---|---|---|---|
| simplex_sniffer.py:25-44 | `--freq` has `type=validate_frequency`, so the check receives the raw string and `30 <= "446.056"` raises `TypeError`; argparse turns that into a usage error | `--freq 446.056` (the tool's own usage example) exits with status 2 | convert to float, then check 30-3000 MHz | not executed | Sniffer.EveryFrequencyRejectedAsWritten | Sniffer.ValidateFrequency |
| simplex_sniffer.py:130 | the report name is `output.replace('.'+format, '_report.txt')`, which leaves a name without `.<format>` unchanged | `--output capture --analyze` writes the report to `capture`, over the captured samples | a report beside the capture, never over it | not executed | Sniffer.ReportOverwritesCapture | Sniffer.ReportName |

=== FILE: bytes.dfy ===
/**
 * Little-endian byte layouts. numpy's `tobytes()` writes each array element
 * in the machine's byte order; the model fixes that order to little-endian,
 * the order of the hosts the capture tool runs on.
 */
module Bytes {

  newtype byte = x: int | 0 <= x < 256

  /** 256 to the power `width`: the number of values `width` bytes can hold. */
  function Pow256(width: nat): (r: nat)
    ensures r >= 1
  {
    if width == 0 then 1 else 256 * Pow256(width - 1)
  }

  /** The unsigned value `v` as `width` bytes, least significant byte first. */
  function EncodeLE(v: nat, width: nat): (r: seq<byte>)
    requires v < Pow256(width)
    ensures |r| == width
  {
    if width == 0 then []
    else
      assert v / 256 < Pow256(width - 1);
      [(v % 256) as byte] + EncodeLE(v / 256, width - 1)
  }

  /** The unsigned value of a little-endian byte string. */
  function DecodeLE(bs: seq<byte>): (r: nat)
    ensures r < Pow256(|bs|)
  {
    if |bs| == 0 then 0
    else
      var rest := DecodeLE(bs[1..]);
      assert rest <= Pow256(|bs| - 1) - 1;
      assert 256 * rest <= 256 * Pow256(|bs| - 1) - 256;
      bs[0] as nat + 256 * rest
  }

  lemma {:induction false} DecodeEncodeLE(v: nat, width: nat)
    requires v < Pow256(width)
    ensures DecodeLE(EncodeLE(v, width)) == v
  {
    if width > 0 {
      var bs := EncodeLE(v, width);
      assert bs[1..] == EncodeLE(v / 256, width - 1);
      DecodeEncodeLE(v / 256, width - 1);
    }
  }

  lemma {:induction false} EncodeDecodeLE(bs: seq<byte>)
    ensures EncodeLE(DecodeLE(bs), |bs|) == bs
  {
    if |bs| > 0 {
      var v := DecodeLE(bs);
      var rest := DecodeLE(bs[1..]);
      assert v % 256 == bs[0] as nat && v / 256 == rest;
      EncodeDecodeLE(bs[1..]);
    }
  }

  /** Every word of `ws` fits in `width` bytes. */
  predicate WordsFit(ws: seq<nat>, width: nat) {
    forall i :: 0 <= i < |ws| ==> ws[i] < Pow256(width)
  }

  /** A stream of unsigned words, each written as `width` little-endian bytes, back to back. */
  function EncodeWords(ws: seq<nat>, width: nat): (r: seq<byte>)
    requires WordsFit(ws, width)
    ensures |r| == width * |ws|
  {
    if |ws| == 0 then [] else EncodeLE(ws[0], width) + EncodeWords(ws[1..], width)
  }

  /** Cuts a byte stream of `count` words into `width`-byte little-endian words. */
  function DecodeWords(bs: seq<byte>, width: nat, count: nat): (r: seq<nat>)
    requires |bs| == width * count
    ensures |r| == count
    ensures WordsFit(r, width)
  {
    if count == 0 then []
    else
      assert width * count == width + width * (count - 1);
      [DecodeLE(bs[..width])] + DecodeWords(bs[width..], width, count - 1)
  }

  lemma {:induction false} DecodeEncodeWords(ws: seq<nat>, width: nat)
    requires WordsFit(ws, width)
    ensures DecodeWords(EncodeWords(ws, width), width, |ws|) == ws
  {
    if |ws| > 0 {
      var bs := EncodeWords(ws, width);
      assert bs[..width] == EncodeLE(ws[0], width);
      assert bs[width..] == EncodeWords(ws[1..], width);
      DecodeEncodeLE(ws[0], width);
      DecodeEncodeWords(ws[1..], width);
    }
  }

  /** Encoding distributes over concatenation of word streams. */
  lemma {:induction false} EncodeWordsAppend(a: seq<nat>, b: seq<nat>, width: nat)
    requires WordsFit(a, width) && WordsFit(b, width)
    ensures WordsFit(a + b, width)
    ensures EncodeWords(a + b, width) == EncodeWords(a, width) + EncodeWords(b, width)
  {
    assert WordsFit(a + b, width) by {
      forall k | 0 <= k < |a + b| ensures (a + b)[k] < Pow256(width) {
        if k < |a| { assert (a + b)[k] == a[k]; } else { assert (a + b)[k] == b[k - |a|]; }
      }
    }
    if |a| > 0 {
      assert (a + b)[1..] == a[1..] + b;
      EncodeWordsAppend(a[1..], b, width);
    } else {
      assert a + b == b;
    }
  }

  /** Word `i` of the stream follows the bytes of the `i` words before it. */
  lemma WordPosition(ws: seq<nat>, width: nat, i: nat)
    requires WordsFit(ws, width) && i < |ws|
    ensures WordsFit(ws[..i], width)
    ensures var lo := |EncodeWords(ws[..i], width)|;
      lo + width <= |EncodeWords(ws, width)| && EncodeWords(ws, width)[lo .. lo + width] == EncodeLE(ws[i], width)
  {
    var before, after := ws[..i], ws[i + 1..];
    assert ws == before + ([ws[i]] + after);
    assert WordsFit(before, width) && WordsFit(after, width);
    WordAfter(before, ws[i], after, width);
    var pre, post := EncodeWords(before, width), EncodeLE(ws[i], width) + EncodeWords(after, width);
    SliceAfterPrefix(pre, post, 0, width);
  }

  /** `i` words take `i * width` bytes. */
  lemma PrefixBytes(ws: seq<nat>, width: nat)
    requires WordsFit(ws, width)
    ensures |EncodeWords(ws, width)| == |ws| * width
  {
  }

  /** The bytes of a word follow the bytes of all the words before it and precede those after it. */
  lemma WordAfter(before: seq<nat>, w: nat, after: seq<nat>, width: nat)
    requires WordsFit(before, width) && WordsFit(after, width) && w < Pow256(width)
    ensures WordsFit(before + ([w] + after), width)
    ensures EncodeWords(before + ([w] + after), width)
         == EncodeWords(before, width) + (EncodeLE(w, width) + EncodeWords(after, width))
  {
    var rest := [w] + after;
    assert rest[1..] == after;
    assert WordsFit(rest, width);
    EncodeWordsAppend(before, rest, width);
  }

  /** A slice lying wholly after a prefix is a slice of what follows it. */
  lemma SliceAfterPrefix(a: seq<byte>, b: seq<byte>, lo: nat, hi: nat)
    requires lo <= hi <= |b|
    ensures (a + b)[|a| + lo .. |a| + hi] == b[lo .. hi]
  {
  }
}

=== FILE: numbers.dfy ===
/**
 * The integer conversions of Python and numpy the capture tool uses,
 * written out over unbounded integers and exact reals.
 */
module Numbers {

  /** numpy's `int16`. */
  newtype int16 = x: int | -32768 <= x < 32768

  /** Python's `int(x)` on a real: truncation toward zero. */
  function TruncateToInt(x: real): (r: int)
    ensures x >= 0.0 ==> r >= 0 && r as real <= x < r as real + 1.0
    ensures x < 0.0 ==> r <= 0 && r as real - 1.0 < x <= r as real
  {
    if x >= 0.0 then x.Floor else -((-x).Floor)
  }

  /**
   * The two's-complement reinterpretation of an integer as `int16`: the
   * result is congruent to `v` modulo 2^16, and equals `v` when `v` fits.
   */
  function WrapInt16(v: int): (r: int16)
    ensures (r as int - v) % 65536 == 0
    ensures -32768 <= v < 32768 ==> r as int == v
  {
    ((v + 32768) % 65536 - 32768) as int16
  }

  /** The bit pattern of an `int16` read as an unsigned 16-bit word. */
  function Unsigned16(v: int16): (u: nat)
    ensures u < 65536
    ensures v >= 0 ==> u == v as int
    ensures v < 0 ==> u == v as int + 65536
  {
    (v as int) % 65536
  }

  /** An unsigned 16-bit word read back as `int16`. */
  function Signed16(u: nat): (v: int16)
    requires u < 65536
    ensures Unsigned16(v) == u
  {
    if u >= 32768 then (u - 65536) as int16 else u as int16
  }
}

=== FILE: sample_codec.dfy ===
/**
 * The sample codec of the capture tool: how a buffer of complex I/Q samples
 * becomes the payload of a WAV file (interleaved 16-bit PCM) or of a raw
 * file (complex64), and the dispatch on the output format name.
 */
module SampleCodec {
  import opened Wrappers
  import opened Bytes
  import opened Numbers

  /** One I/Q sample: in-phase (real part) and quadrature (imaginary part). */
  datatype Complex = Complex(re: real, im: real)

  // ---------------------------------------------------------------------------
  // I/Q interleaving
  // ---------------------------------------------------------------------------

  /** Real parts go to the even slots and imaginary parts to the odd slots. */
  function Interleave(samples: seq<Complex>): (r: seq<real>)
    ensures |r| == 2 * |samples|
    ensures forall k :: 0 <= k < |samples| ==> r[2 * k] == samples[k].re && r[2 * k + 1] == samples[k].im
  {
    if |samples| == 0 then [] else [samples[0].re, samples[0].im] + Interleave(samples[1..])
  }

  /** Pairs consecutive slots back into samples: even slot real, odd slot imaginary. */
  function Deinterleave(xs: seq<real>): (r: seq<Complex>)
    requires |xs| % 2 == 0
    ensures 2 * |r| == |xs|
    ensures forall k :: 0 <= k < |r| ==> r[k] == Complex(xs[2 * k], xs[2 * k + 1])
  {
    if |xs| == 0 then [] else [Complex(xs[0], xs[1])] + Deinterleave(xs[2..])
  }

  lemma DeinterleaveInterleave(samples: seq<Complex>)
    ensures Deinterleave(Interleave(samples)) == samples
  {
  }

  lemma {:induction false} InterleaveDeinterleave(xs: seq<real>)
    requires |xs| % 2 == 0
    ensures Interleave(Deinterleave(xs)) == xs
  {
    if |xs| > 0 {
      var d := Deinterleave(xs);
      assert d[0] == Complex(xs[0], xs[1]) && d[1..] == Deinterleave(xs[2..]);
      InterleaveDeinterleave(xs[2..]);
      assert [xs[0], xs[1]] + xs[2..] == xs;
    }
  }

  // ---------------------------------------------------------------------------
  // WAV payload: `np.int16(interleaved * 32767)`
  // ---------------------------------------------------------------------------

  /** The fixed peak amplitude a component of magnitude 1 is scaled to. */
  const FullScale: real := 32767.0

  /**
   * One component scaled to 16 bits: multiplied by 32767, truncated toward
   * zero, then cast to `int16`, which wraps rather than saturates.
   */
  function ScaleToInt16(x: real): int16
  {
    WrapInt16(TruncateToInt(x * FullScale))
  }

  /** A normalised component lands in [-32767, 32767], with no wrap-around. */
  lemma ScaleInRange(x: real)
    requires -1.0 <= x <= 1.0
    ensures -32767 <= ScaleToInt16(x) <= 32767
    ensures ScaleToInt16(x) as int == TruncateToInt(x * FullScale)
  {
    var t := TruncateToInt(x * FullScale);
    assert -32767.0 <= x * FullScale <= 32767.0;
    assert -32767 <= t <= 32767;
  }

  /** One normalised component scaled and divided back lies within one step of where it started. */
  lemma ComponentRoundTrip(x: real)
    requires -1.0 <= x <= 1.0
    ensures -1.0 / FullScale < ScaleToInt16(x) as real / FullScale - x < 1.0 / FullScale
  {
    ScaleQuantisation(x);
  }

  /**
   * Scaling a normalised component loses less than one quantisation step,
   * and never increases its magnitude.
   */
  lemma ScaleQuantisation(x: real)
    requires -1.0 <= x <= 1.0
    ensures var y := ScaleToInt16(x) as real / FullScale;
      (x >= 0.0 ==> 0.0 <= x - y < 1.0 / FullScale) && (x < 0.0 ==> 0.0 <= y - x < 1.0 / FullScale)
  {
    ScaleInRange(x);
  }

  /** Out of range, the cast wraps: 1.5 becomes 49150, read back as -16386. */
  lemma ScaleWrapsOutOfRange()
    ensures ScaleToInt16(1.5) == -16386
    ensures ScaleToInt16(-1.5) == 16386
  {
    assert TruncateToInt(1.5 * FullScale) == 49150;
    assert TruncateToInt(-1.5 * FullScale) == -49150;
  }

  /** The `int16` array handed to the WAV writer: scaled components, I/Q interleaved. */
  function WavSamples(samples: seq<Complex>): (r: seq<int16>)
    ensures |r| == 2 * |samples|
    ensures forall k :: 0 <= k < |samples| ==>
      r[2 * k] == ScaleToInt16(samples[k].re) && r[2 * k + 1] == ScaleToInt16(samples[k].im)
  {
    var xs := Interleave(samples);
    seq(|xs|, i requires 0 <= i < |xs| => ScaleToInt16(xs[i]))
  }

  /** The 16-bit words as little-endian bytes, two per component. */
  function Int16Bytes(vs: seq<int16>): (r: seq<byte>)
    ensures |r| == 2 * |vs|
  {
    var ws := seq(|vs|, i requires 0 <= i < |vs| => Unsigned16(vs[i]));
    assert WordsFit(ws, 2);
    EncodeWords(ws, 2)
  }

  /** Reads little-endian bytes back as `int16` words. */
  function BytesInt16(bs: seq<byte>): (r: seq<int16>)
    requires |bs| % 2 == 0
    ensures 2 * |r| == |bs|
  {
    var ws := DecodeWords(bs, 2, |bs| / 2);
    seq(|ws|, i requires 0 <= i < |ws| => Signed16(ws[i]))
  }

  lemma BytesInt16RoundTrip(vs: seq<int16>)
    ensures BytesInt16(Int16Bytes(vs)) == vs
  {
    var ws := seq(|vs|, i requires 0 <= i < |vs| => Unsigned16(vs[i]));
    assert WordsFit(ws, 2);
    DecodeEncodeWords(ws, 2);
  }

  /** What `wave` is told: two channels (I and Q), two bytes per sample, the capture rate. */
  datatype WavFile = WavFile(channels: nat, sampleWidth: nat, frameRate: int, frames: seq<byte>)

  function EncodeWav(samples: seq<Complex>, sampleRate: int): (w: WavFile)
    ensures w.channels == 2 && w.sampleWidth == 2 && w.frameRate == sampleRate
    ensures |w.frames| == 4 * |samples|
  {
    WavFile(2, 2, sampleRate, Int16Bytes(WavSamples(samples)))
  }

  /** Reads WAV frames back as samples, each 16-bit value divided by the full scale. */
  function DecodeWavFrames(frames: seq<byte>): (r: seq<Complex>)
    requires |frames| % 4 == 0
    ensures 4 * |r| == |frames|
    ensures var vs := BytesInt16(frames);
      forall k :: 0 <= k < |r| ==> r[k] == Complex(vs[2 * k] as real / FullScale, vs[2 * k + 1] as real / FullScale)
  {
    var vs := BytesInt16(frames);
    Deinterleave(seq(|vs|, i requires 0 <= i < |vs| => vs[i] as real / FullScale))
  }

  /** Every component of every sample lies in [-1, 1]. */
  predicate Normalised(samples: seq<Complex>) {
    forall k :: 0 <= k < |samples| ==>
      -1.0 <= samples[k].re <= 1.0 && -1.0 <= samples[k].im <= 1.0
  }

  /**
   * Decoding the WAV frames of a normalised buffer gives back each component
   * to within one quantisation step (1/32767).
   */
  lemma WavRoundTrip(samples: seq<Complex>, sampleRate: int)
    requires Normalised(samples)
    ensures var d := DecodeWavFrames(EncodeWav(samples, sampleRate).frames);
      |d| == |samples| &&
      forall k :: 0 <= k < |samples| ==>
        -1.0 / FullScale < d[k].re - samples[k].re < 1.0 / FullScale &&
        -1.0 / FullScale < d[k].im - samples[k].im < 1.0 / FullScale
  {
    var d := DecodeWavFrames(EncodeWav(samples, sampleRate).frames);
    forall k | 0 <= k < |samples|
      ensures -1.0 / FullScale < d[k].re - samples[k].re < 1.0 / FullScale
      ensures -1.0 / FullScale < d[k].im - samples[k].im < 1.0 / FullScale
    {
      DecodedSample(samples, sampleRate, k);
      SampleRoundTrip(samples[k], d[k]);
    }
  }

  /** Frame k of the encoded buffer decodes to the scaled components of sample k. */
  lemma DecodedSample(samples: seq<Complex>, sampleRate: int, k: nat)
    requires k < |samples|
    ensures var d := DecodeWavFrames(EncodeWav(samples, sampleRate).frames);
      |d| == |samples| &&
      d[k] == Complex(ScaleToInt16(samples[k].re) as real / FullScale, ScaleToInt16(samples[k].im) as real / FullScale)
  {
    var vs := WavSamples(samples);
    assert EncodeWav(samples, sampleRate).frames == Int16Bytes(vs);
    BytesInt16RoundTrip(vs);
  }

  /** One sample against its decoded WAV frame: both components within one step. */
  lemma SampleRoundTrip(s: Complex, d: Complex)
    requires -1.0 <= s.re <= 1.0 && -1.0 <= s.im <= 1.0
    requires d == Complex(ScaleToInt16(s.re) as real / FullScale, ScaleToInt16(s.im) as real / FullScale)
    ensures -1.0 / FullScale < d.re - s.re < 1.0 / FullScale
    ensures -1.0 / FullScale < d.im - s.im < 1.0 / FullScale
  {
    ComponentRoundTrip(s.re);
    ComponentRoundTrip(s.im);
  }

  // ---------------------------------------------------------------------------
  // Raw payload: `samples.astype(np.complex64).tobytes()`
  // ---------------------------------------------------------------------------

  /** The bit pattern of an IEEE-754 single-precision float. */
  newtype F32Bits = x: int | 0 <= x < 0x1_0000_0000

  /** A complex64 value: two single-precision floats. */
  datatype Complex64 = Complex64(re: F32Bits, im: F32Bits)

  /**
   * `astype(np.complex64)`: each part rounded to single precision by
   * `toF32`, the platform's float rounding, which the model leaves abstract.
   */
  function AsComplex64(samples: seq<Complex>, toF32: real -> F32Bits): (r: seq<Complex64>)
    ensures |r| == |samples|
    ensures forall k :: 0 <= k < |r| ==> r[k] == Complex64(toF32(samples[k].re), toF32(samples[k].im))
  {
    seq(|samples|, k requires 0 <= k < |samples| => Complex64(toF32(samples[k].re), toF32(samples[k].im)))
  }

  /** The 32-bit words of a complex64 buffer: real then imaginary, per sample. */
  function Complex64Words(cs: seq<Complex64>): (ws: seq<nat>)
    ensures |ws| == 2 * |cs| && WordsFit(ws, 4)
    ensures forall k :: 0 <= k < |cs| ==> ws[2 * k] == cs[k].re as nat && ws[2 * k + 1] == cs[k].im as nat
  {
    if |cs| == 0 then [] else [cs[0].re as nat, cs[0].im as nat] + Complex64Words(cs[1..])
  }

  /** `tobytes()` of a complex64 array: no header, 8 bytes per sample. */
  function EncodeComplex64(cs: seq<Complex64>): (r: seq<byte>)
    ensures |r| == 8 * |cs|
  {
    EncodeWords(Complex64Words(cs), 4)
  }

  /** Reads a headerless complex64 byte stream back into samples. */
  function DecodeComplex64(bs: seq<byte>): (r: seq<Complex64>)
    requires |bs| % 8 == 0
    ensures 8 * |r| == |bs|
  {
    var ws := DecodeWords(bs, 4, |bs| / 4);
    seq(|ws| / 2, k requires 0 <= k < |ws| / 2 => Complex64(ws[2 * k] as F32Bits, ws[2 * k + 1] as F32Bits))
  }

  lemma Complex64RoundTrip(cs: seq<Complex64>)
    ensures DecodeComplex64(EncodeComplex64(cs)) == cs
  {
    DecodeEncodeWords(Complex64Words(cs), 4);
  }

  /** Sample `k` occupies bytes [8k, 8k+8): four for the real part, then four for the imaginary part. */
  lemma Complex64Layout(cs: seq<Complex64>, k: nat)
    requires k < |cs|
    ensures EncodeComplex64(cs)[8 * k .. 8 * k + 4] == EncodeLE(cs[k].re as nat, 4)
    ensures EncodeComplex64(cs)[8 * k + 4 .. 8 * k + 8] == EncodeLE(cs[k].im as nat, 4)
  {
    var ws := Complex64Words(cs);
    var bs := EncodeWords(ws, 4);
    assert EncodeComplex64(cs) == bs;
    FloatWordAt(ws, 2 * k);
    FloatWordAt(ws, 2 * k + 1);
    assert ws[2 * k] == cs[k].re as nat && ws[2 * k + 1] == cs[k].im as nat;
    assert bs[8 * k .. 8 * k + 4] == EncodeLE(ws[2 * k], 4);
    assert bs[8 * k + 4 .. 8 * k + 8] == EncodeLE(ws[2 * k + 1], 4);
  }

  /** Float word `j` of the stream occupies bytes [4j, 4j+4). */
  lemma FloatWordAt(ws: seq<nat>, j: nat)
    requires WordsFit(ws, 4) && j < |ws|
    ensures 4 * j + 4 <= |EncodeWords(ws, 4)|
    ensures EncodeWords(ws, 4)[4 * j .. 4 * j + 4] == EncodeLE(ws[j], 4)
  {
    WordPosition(ws, 4, j);
    PrefixBytes(ws[..j], 4);
  }

  function EncodeRaw(samples: seq<Complex>, toF32: real -> F32Bits): (r: seq<byte>)
    ensures |r| == 8 * |samples|
  {
    EncodeComplex64(AsComplex64(samples, toF32))
  }

  // ---------------------------------------------------------------------------
  // Save dispatch
  // ---------------------------------------------------------------------------

  /** The two output formats the writer knows. */
  datatype OutputFormat = Wav | Raw

  function FormatName(f: OutputFormat): string {
    match f
    case Wav => "wav"
    case Raw => "raw"
  }

  /** The closed reading of a format name: only the exact strings "wav" and "raw" are known. */
  function ParseFormat(name: string): (r: Option<OutputFormat>)
    ensures r.Some? <==> name == "wav" || name == "raw"
    ensures r.Some? ==> FormatName(r.value) == name
  {
    if name == "wav" then Some(Wav) else if name == "raw" then Some(Raw) else None
  }

  lemma ParseFormatName(f: OutputFormat)
    ensures ParseFormat(FormatName(f)) == Some(f)
  {
  }

  /** What a save puts on disk: the file name and its payload. */
  datatype SavedFile =
    | SavedWav(name: string, wav: WavFile)
    | SavedRaw(name: string, bytes: seq<byte>)

  /** Why a save raises before its payload is written. */
  datatype FormatError =
      /** The `ValueError` raised for a format other than "wav" and "raw". */
    | UnsupportedFormat(format: string)
      /** `wave`'s `setframerate` refuses a frame rate that is not positive. */
    | BadFrameRate(rate: int)

  /** A save in `format` at `sampleRate` gets as far as writing its payload. */
  predicate Saveable(format: string, sampleRate: int) {
    format == "raw" || (format == "wav" && sampleRate > 0)
  }

  /** The WAV writer's check: `setframerate` accepts only a positive rate. */
  function WavFrameRate(sampleRate: int): (r: Result<int, FormatError>)
    ensures r.Success? <==> sampleRate > 0
    ensures r.Success? ==> r.value == sampleRate
    ensures r.Failure? ==> r.error == BadFrameRate(sampleRate)
  {
    if sampleRate <= 0 then Failure(BadFrameRate(sampleRate)) else Success(sampleRate)
  }

  /**
   * `_save_samples`: "wav" selects the WAV writer, which refuses a rate that
   * is not positive; "raw" the raw writer; any other name fails with
   * `UnsupportedFormat`. A failed save writes no samples.
   */
  function SaveSamples(samples: seq<Complex>, outputFile: string, format: string,
                       sampleRate: int, toF32: real -> F32Bits): (r: Result<SavedFile, FormatError>)
    ensures r.Success? <==> Saveable(format, sampleRate)
    ensures format != "wav" && format != "raw" ==> r == Failure(UnsupportedFormat(format))
    ensures format == "wav" && sampleRate <= 0 ==> r == Failure(BadFrameRate(sampleRate))
    ensures format == "wav" && sampleRate > 0 ==>
      && r.Success? && r.value.SavedWav? && r.value.name == outputFile
      && r.value.wav.channels == 2 && r.value.wav.sampleWidth == 2 && r.value.wav.frameRate == sampleRate
      && |r.value.wav.frames| == 4 * |samples| && r.value.wav == EncodeWav(samples, sampleRate)
    ensures format == "raw" ==>
      && r.Success? && r.value.SavedRaw? && r.value.name == outputFile
      && |r.value.bytes| == 8 * |samples| && r.value.bytes == EncodeRaw(samples, toF32)
  {
    match ParseFormat(format)
    case Some(Wav) =>
      var rate := WavFrameRate(sampleRate);
      if rate.Failure? then Failure(rate.error) else Success(SavedWav(outputFile, EncodeWav(samples, rate.value)))
    case Some(Raw) => Success(SavedRaw(outputFile, EncodeRaw(samples, toF32)))
    case None => Failure(UnsupportedFormat(format))
  }

  /**
   * The WAV file holds the interleaved 16-bit samples: for normalised input,
   * decoding its frames gives every component back within one step.
   */
  lemma WavSaveRoundTrip(samples: seq<Complex>, outputFile: string, sampleRate: int, toF32: real -> F32Bits)
    requires Normalised(samples)
    ensures var r := SaveSamples(samples, outputFile, "wav", sampleRate, toF32);
      && (r.Success? <==> sampleRate > 0)
      && (r.Success? ==>
            && r.value.SavedWav?
            && var d := DecodeWavFrames(r.value.wav.frames);
            && |d| == |samples|
            && forall k :: 0 <= k < |samples| ==>
              && -1.0 / FullScale < d[k].re - samples[k].re < 1.0 / FullScale
              && -1.0 / FullScale < d[k].im - samples[k].im < 1.0 / FullScale)
  {
    WavRoundTrip(samples, sampleRate);
  }

  /** The raw file holds exactly the complex64 bytes: decoding it gives the rounded samples back. */
  lemma RawSaveRoundTrip(samples: seq<Complex>, outputFile: string, sampleRate: int, toF32: real -> F32Bits)
    ensures var r := SaveSamples(samples, outputFile, "raw", sampleRate, toF32);
      r.Success? && r.value.SavedRaw? && DecodeComplex64(r.value.bytes) == AsComplex64(samples, toF32)
  {
    Complex64RoundTrip(AsComplex64(samples, toF32));
  }
}

=== FILE: signal_analysis.dfy ===
/**
 * The spectral analyzer's decision logic: which bins of the power spectrum
 * become reported peaks and in what order, the modulation heuristic, and the
 * text of the analysis report. The numerics (FFT magnitudes, the Hilbert
 * transform, phase unwrapping, mean and standard deviation) arrive as inputs.
 */
module SignalAnalysis {
  import opened Wrappers
  import opened Text

  // ---------------------------------------------------------------------------
  // Frequency bins
  // ---------------------------------------------------------------------------

  /**
   * `fftfreq(n, 1/sampleRate)[i]`: bins 0 .. (n-1)/2 are the non-negative
   * frequencies i·rate/n, the remaining bins the negative ones (i-n)·rate/n.
   */
  function FftFreq(n: nat, sampleRate: real, i: nat): (f: real)
    requires i < n
    ensures sampleRate > 0.0 ==> (f >= 0.0 <==> i <= (n - 1) / 2)
    ensures i < n / 2 ==> f == (i as real) * sampleRate / (n as real)
  {
    var k := if i < (n - 1) / 2 + 1 then i else i - n;
    assert sampleRate > 0.0 && k < 0 ==> (k as real) * sampleRate < 0.0;
    (k as real) * sampleRate / (n as real)
  }

  /** Across the searched half of the spectrum, a higher bin is a strictly higher frequency. */
  lemma FftFreqIncreasing(n: nat, sampleRate: real, i: nat, j: nat)
    requires i < j < n / 2 && sampleRate > 0.0
    ensures FftFreq(n, sampleRate, i) < FftFreq(n, sampleRate, j)
  {
    var x, y := (i as real) * sampleRate, (j as real) * sampleRate;
    var t := (j - i) as real;
    assert t * sampleRate > 0.0;
    assert y == x + t * sampleRate by {
      assert j as real == i as real + t;
    }
    DivideKeepsOrder(x, y, n as real);
  }

  lemma DivideKeepsOrder(x: real, y: real, d: real)
    requires x < y && d > 0.0
    ensures x / d < y / d
  {
    assert y / d - x / d == (y - x) / d;
  }

  // ---------------------------------------------------------------------------
  // Peak selection
  // ---------------------------------------------------------------------------

  predicate StrictlyIncreasing(xs: seq<nat>) {
    forall a, b :: 0 <= a < b < |xs| ==> xs[a] < xs[b]
  }

  /**
   * The indices `find_peaks(half, height=threshold, ...)` returns, scanned
   * from index `from`: those `select` marks (its local-maximum test and its
   * `distance` suppression, left abstract) whose height is at least the
   * threshold, in ascending order.
   */
  function FindPeaks(half: seq<real>, threshold: real, select: nat -> bool, from: nat): (r: seq<nat>)
    ensures StrictlyIncreasing(r)
    ensures forall k :: 0 <= k < |r| ==>
      from <= r[k] < |half| && select(r[k]) && half[r[k]] >= threshold
    ensures forall i :: from <= i < |half| && select(i) && half[i] >= threshold ==> i in r
    decreases |half| - from
  {
    if from >= |half| then []
    else
      var rest := FindPeaks(half, threshold, select, from + 1);
      if select(from) && half[from] >= threshold then [from] + rest else rest
  }

  /** A spectral peak: its frequency offset from the centre and its power in dB. */
  datatype Peak = Peak(freq: real, power: real)

  // ---------------------------------------------------------------------------
  // Ordering: `peak_info.sort(key=power, reverse=True)`
  // ---------------------------------------------------------------------------

  predicate SortedByPower(ps: seq<Peak>) {
    forall a, b :: 0 <= a < b < |ps| ==> ps[a].power >= ps[b].power
  }

  /** Among peaks of equal power, the lower frequency comes first. */
  predicate TiesByFrequency(ps: seq<Peak>) {
    forall a, b :: 0 <= a < b < |ps| && ps[a].power == ps[b].power ==> ps[a].freq < ps[b].freq
  }

  predicate FrequencyAscending(ps: seq<Peak>) {
    forall a, b :: 0 <= a < b < |ps| ==> ps[a].freq < ps[b].freq
  }

  /** `x` may come before `y`: more power, or equal power and lower frequency. */
  predicate Precedes(x: Peak, y: Peak) {
    x.power >= y.power && (x.power == y.power ==> x.freq < y.freq)
  }

  predicate Ordered(ps: seq<Peak>) {
    forall a, b :: 0 <= a < b < |ps| ==> Precedes(ps[a], ps[b])
  }

  /**
   * Places `p` before the first peak whose power does not exceed its own,
   * so that `p` stays ahead of the peaks of equal power that followed it.
   */
  function InsertByPower(p: Peak, sorted: seq<Peak>): (r: seq<Peak>)
    ensures |r| == |sorted| + 1
    ensures multiset(r) == multiset([p] + sorted)
    ensures forall q :: q in r <==> q == p || q in sorted
  {
    if |sorted| == 0 || p.power >= sorted[0].power then [p] + sorted
    else
      assert sorted == [sorted[0]] + sorted[1..];
      [sorted[0]] + InsertByPower(p, sorted[1..])
  }

  /** Python's stable sort by descending power, as insertion sort from the back. */
  function SortByPower(ps: seq<Peak>): (r: seq<Peak>)
    ensures |r| == |ps|
    ensures multiset(r) == multiset(ps)
    ensures forall q :: q in r <==> q in ps
  {
    if |ps| == 0 then []
    else
      assert ps == [ps[0]] + ps[1..];
      InsertByPower(ps[0], SortByPower(ps[1..]))
  }

  /** Prepending a peak that precedes everything keeps a sequence ordered. */
  lemma ConsOrdered(x: Peak, ys: seq<Peak>)
    requires Ordered(ys) && forall q :: q in ys ==> Precedes(x, q)
    ensures Ordered([x] + ys)
  {
    var r := [x] + ys;
    forall a, b | 0 <= a < b < |r| ensures Precedes(r[a], r[b]) {
      assert r[b] == ys[b - 1];
      if a > 0 { assert r[a] == ys[a - 1]; }
    }
  }

  lemma ConsSorted(x: Peak, ys: seq<Peak>)
    requires SortedByPower(ys) && forall q :: q in ys ==> x.power >= q.power
    ensures SortedByPower([x] + ys)
  {
    var r := [x] + ys;
    forall a, b | 0 <= a < b < |r| ensures r[a].power >= r[b].power {
      assert r[b] == ys[b - 1];
      if a > 0 { assert r[a] == ys[a - 1]; }
    }
  }

  lemma {:induction false} InsertByPowerOrdered(p: Peak, sorted: seq<Peak>)
    requires Ordered(sorted)
    requires forall q :: q in sorted ==> p.freq < q.freq
    ensures Ordered(InsertByPower(p, sorted))
  {
    if |sorted| == 0 || p.power >= sorted[0].power {
      forall q | q in sorted ensures Precedes(p, q) {
        var m :| 0 <= m < |sorted| && sorted[m] == q;
        if m > 0 { assert Precedes(sorted[0], sorted[m]); }
      }
      ConsOrdered(p, sorted);
    } else {
      var tail := sorted[1..];
      assert Ordered(tail);
      InsertByPowerOrdered(p, tail);
      forall q | q in InsertByPower(p, tail) ensures Precedes(sorted[0], q) {
        if q != p {
          var m :| 0 <= m < |tail| && tail[m] == q;
          assert q == sorted[m + 1];
        }
      }
      ConsOrdered(sorted[0], InsertByPower(p, tail));
    }
  }

  lemma {:induction false} InsertByPowerSorted(p: Peak, sorted: seq<Peak>)
    requires SortedByPower(sorted)
    ensures SortedByPower(InsertByPower(p, sorted))
  {
    if |sorted| == 0 || p.power >= sorted[0].power {
      forall q | q in sorted ensures p.power >= q.power {
        var m :| 0 <= m < |sorted| && sorted[m] == q;
        if m > 0 { assert sorted[0].power >= sorted[m].power; }
      }
      ConsSorted(p, sorted);
    } else {
      var tail := sorted[1..];
      InsertByPowerSorted(p, tail);
      forall q | q in InsertByPower(p, tail) ensures sorted[0].power >= q.power {
        if q != p {
          var m :| 0 <= m < |tail| && tail[m] == q;
          assert q == sorted[m + 1];
        }
      }
      ConsSorted(sorted[0], InsertByPower(p, tail));
    }
  }

  /** Whatever the input order, the sort leaves peaks by non-increasing power. */
  lemma {:induction false} SortByPowerSorted(ps: seq<Peak>)
    ensures SortedByPower(SortByPower(ps))
  {
    if |ps| > 0 {
      SortByPowerSorted(ps[1..]);
      InsertByPowerSorted(ps[0], SortByPower(ps[1..]));
    }
  }

  /**
   * The sort orders by non-increasing power and, because it is stable,
   * keeps equal-power peaks in their original (ascending-frequency) order.
   */
  lemma {:induction false} SortByPowerStable(ps: seq<Peak>)
    requires FrequencyAscending(ps)
    ensures SortedByPower(SortByPower(ps))
    ensures TiesByFrequency(SortByPower(ps))
  {
    SortByPowerOrderedFromAscending(ps);
  }

  lemma {:induction false} SortByPowerOrderedFromAscending(ps: seq<Peak>)
    requires FrequencyAscending(ps)
    ensures Ordered(SortByPower(ps))
  {
    if |ps| > 0 {
      var tail := ps[1..];
      assert FrequencyAscending(tail);
      SortByPowerOrderedFromAscending(tail);
      forall q | q in SortByPower(tail) ensures ps[0].freq < q.freq {
        var m :| 0 <= m < |tail| && tail[m] == q;
        assert q == ps[m + 1];
      }
      InsertByPowerOrdered(ps[0], SortByPower(tail));
    }
  }

  // ---------------------------------------------------------------------------
  // detect_signal_peaks
  // ---------------------------------------------------------------------------

  /** The threshold `_perform_realtime_analysis` relies on: the default `threshold_db`. */
  const DefaultThresholdDb: real := -60.0

  /** The peak for spectrum bin `i`: the bin's frequency paired with its power. */
  function BinPeak(power: seq<real>, sampleRate: real, i: nat): Peak
    requires i < |power|
  {
    Peak(FftFreq(|power|, sampleRate, i), power[i])
  }

  /** The peaks of the found bins, in the order `find_peaks` returned them. */
  function PeaksOfBins(power: seq<real>, sampleRate: real, idx: seq<nat>): (info: seq<Peak>)
    requires forall k :: 0 <= k < |idx| ==> idx[k] < |power|
    ensures |info| == |idx|
    ensures forall k :: 0 <= k < |idx| ==> info[k] == BinPeak(power, sampleRate, idx[k])
  {
    seq(|idx|, k requires 0 <= k < |idx| => BinPeak(power, sampleRate, idx[k]))
  }

  /** The bins `find_peaks` keeps in the first half of the spectrum. */
  function HalfSpectrumPeaks(power: seq<real>, threshold: real, select: nat -> bool): (idx: seq<nat>)
    ensures StrictlyIncreasing(idx)
    ensures forall k :: 0 <= k < |idx| ==>
      idx[k] < |power| / 2 && select(idx[k]) && power[idx[k]] >= threshold
    ensures forall i :: 0 <= i < |power| / 2 && select(i) && power[i] >= threshold ==> i in idx
  {
    var half := power[..|power| / 2];
    var idx := FindPeaks(half, threshold, select, 0);
    assert forall k :: 0 <= k < |idx| ==> half[idx[k]] == power[idx[k]];
    idx
  }

  /**
   * `detect_signal_peaks` on the dB power spectrum of a buffer (one bin per
   * sample): peaks are searched in bins [0, n/2) only, filtered by the
   * threshold, paired with their bin frequency, and sorted strongest first.
   */
  function DetectSignalPeaks(power: seq<real>, sampleRate: real, threshold: real, select: nat -> bool): (r: seq<Peak>)
  {
    var idx := HalfSpectrumPeaks(power, threshold, select);
    SortByPower(PeaksOfBins(power, sampleRate, idx))
  }

  /** Why `detect_signal_peaks` raises before it returns. */
  datatype PeakError =
      /** `fft` refuses a buffer with no samples. */
    | NoSamples
      /** The bin spacing `1/self.sample_rate` divides by zero. */
    | ZeroSampleRate

  /**
   * `detect_signal_peaks` as the analyzer runs it: the FFT of an empty buffer
   * raises first, then the bin spacing raises for a zero sample rate;
   * otherwise the peaks at the default threshold.
   */
  function DetectPeaks(a: SignalAnalyzer, power: seq<real>, select: nat -> bool): (r: Result<seq<Peak>, PeakError>)
    ensures r.Failure? <==> |power| == 0 || a.sampleRate == 0
    ensures |power| == 0 ==> r == Failure(NoSamples)
    ensures |power| > 0 && a.sampleRate == 0 ==> r == Failure(ZeroSampleRate)
    ensures r.Success? ==> r.value == DetectSignalPeaks(power, a.sampleRate as real, DefaultThresholdDb, select)
  {
    if |power| == 0 then Failure(NoSamples)
    else if a.sampleRate == 0 then Failure(ZeroSampleRate)
    else Success(DetectSignalPeaks(power, a.sampleRate as real, DefaultThresholdDb, select))
  }

  /**
   * Every reported peak is a found bin of the first half of the spectrum,
   * at or above the threshold, paired with its own frequency; and every
   * such bin is reported. At most n/2 peaks come back.
   */
  lemma DetectSignalPeaksSelection(power: seq<real>, sampleRate: real, threshold: real, select: nat -> bool)
    ensures var r := DetectSignalPeaks(power, sampleRate, threshold, select);
      && |r| <= |power| / 2
      && (forall q :: q in r ==> q.power >= threshold)
      && (forall q :: q in r <==>
            exists i :: 0 <= i < |power| / 2 && select(i) && power[i] >= threshold && q == BinPeak(power, sampleRate, i))
  {
    var idx := HalfSpectrumPeaks(power, threshold, select);
    IncreasingBounded(idx, |power| / 2);
    FoundBinsMembership(power, sampleRate, threshold, select);
  }

  /** The peaks of the found bins, before sorting, are exactly the qualifying bins' peaks. */
  lemma FoundBinsMembership(power: seq<real>, sampleRate: real, threshold: real, select: nat -> bool)
    ensures var info := PeaksOfBins(power, sampleRate, HalfSpectrumPeaks(power, threshold, select));
      forall q :: q in info <==>
        exists i :: 0 <= i < |power| / 2 && select(i) && power[i] >= threshold && q == BinPeak(power, sampleRate, i)
  {
    var idx := HalfSpectrumPeaks(power, threshold, select);
    var info := PeaksOfBins(power, sampleRate, idx);
    forall q | q in info
      ensures exists i :: 0 <= i < |power| / 2 && select(i) && power[i] >= threshold && q == BinPeak(power, sampleRate, i)
    {
      var m :| 0 <= m < |info| && info[m] == q;
      assert q == BinPeak(power, sampleRate, idx[m]);
    }
    forall i | 0 <= i < |power| / 2 && select(i) && power[i] >= threshold
      ensures BinPeak(power, sampleRate, i) in info
    {
      var m :| 0 <= m < |idx| && idx[m] == i;
      assert info[m] in info;
    }
  }

  /** With a non-negative sample rate, every reported frequency is a non-negative bin. */
  lemma DetectSignalPeaksNonNegative(power: seq<real>, sampleRate: real, threshold: real, select: nat -> bool)
    requires sampleRate >= 0.0
    ensures forall q :: q in DetectSignalPeaks(power, sampleRate, threshold, select) ==> q.freq >= 0.0
  {
    var idx := HalfSpectrumPeaks(power, threshold, select);
    var info := PeaksOfBins(power, sampleRate, idx);
    forall q | q in SortByPower(info) ensures q.freq >= 0.0 {
      var m :| 0 <= m < |info| && info[m] == q;
      LowBinNonNegative(|power|, sampleRate, idx[m]);
    }
  }

  lemma LowBinNonNegative(n: nat, sampleRate: real, i: nat)
    requires i < n / 2 && sampleRate >= 0.0
    ensures FftFreq(n, sampleRate, i) >= 0.0
  {
    assert (i as real) * sampleRate >= 0.0;
  }

  /**
   * The result is sorted strongest first; with a positive sample rate, peaks
   * of equal power come out in ascending frequency.
   */
  lemma DetectSignalPeaksOrdered(power: seq<real>, sampleRate: real, threshold: real, select: nat -> bool)
    ensures SortedByPower(DetectSignalPeaks(power, sampleRate, threshold, select))
    ensures sampleRate > 0.0 ==> TiesByFrequency(DetectSignalPeaks(power, sampleRate, threshold, select))
  {
    var idx := HalfSpectrumPeaks(power, threshold, select);
    var info := PeaksOfBins(power, sampleRate, idx);
    SortByPowerSorted(info);
    if sampleRate > 0.0 {
      forall a, b | 0 <= a < b < |info| ensures info[a].freq < info[b].freq {
        FftFreqIncreasing(|power|, sampleRate, idx[a], idx[b]);
      }
      SortByPowerStable(info);
    }
  }

  lemma {:induction false} IncreasingBounded(xs: seq<nat>, bound: nat)
    requires StrictlyIncreasing(xs)
    requires forall k :: 0 <= k < |xs| ==> xs[k] < bound
    ensures |xs| <= bound
  {
    if |xs| > 0 {
      var last := xs[|xs| - 1];
      assert forall k :: 0 <= k < |xs| - 1 ==> xs[k] < last;
      IncreasingBounded(xs[..|xs| - 1], last);
    }
  }

  // ---------------------------------------------------------------------------
  // analyze_modulation
  // ---------------------------------------------------------------------------

  /** numpy's `np.pi`. */
  const Pi: real := 3.141592653589793

  /** One instantaneous frequency: the phase advance `p1 - p0` over 2π, times the rate. */
  function PhaseRate(p0: real, p1: real, sampleRate: real): real {
    (p1 - p0) / (2.0 * Pi) * sampleRate
  }

  /** `np.diff(phase) / (2π) * sampleRate`: one value per adjacent pair of phases. */
  function InstantaneousFrequency(phase: seq<real>, sampleRate: real): (r: seq<real>)
    ensures |r| == if |phase| == 0 then 0 else |phase| - 1
    ensures forall k :: 0 <= k < |r| ==> r[k] == PhaseRate(phase[k], phase[k + 1], sampleRate)
  {
    if |phase| < 2 then []
    else [PhaseRate(phase[0], phase[1], sampleRate)] + InstantaneousFrequency(phase[1..], sampleRate)
  }

  function Sum(xs: seq<real>): real {
    if |xs| == 0 then 0.0 else xs[0] + Sum(xs[1..])
  }

  /** Two consecutive phase advances add up to the advance across both. */
  lemma PhaseRateAdds(p0: real, p1: real, p2: real, sampleRate: real)
    ensures PhaseRate(p0, p1, sampleRate) + PhaseRate(p1, p2, sampleRate) == PhaseRate(p0, p2, sampleRate)
  {
    var a := (p1 - p0) / (2.0 * Pi);
    var b := (p2 - p1) / (2.0 * Pi);
    assert a + b == (p2 - p0) / (2.0 * Pi);
    assert a * sampleRate + b * sampleRate == (a + b) * sampleRate;
  }

  /**
   * The instantaneous frequencies add up to the total phase advance scaled
   * by rate/(2π): the difference loses nothing between the first and last phase.
   */
  lemma {:induction false} InstantaneousFrequencyTelescopes(phase: seq<real>, sampleRate: real)
    requires |phase| > 0
    ensures Sum(InstantaneousFrequency(phase, sampleRate)) ==
      PhaseRate(phase[0], phase[|phase| - 1], sampleRate)
  {
    if |phase| == 1 {
      assert PhaseRate(phase[0], phase[0], sampleRate) == 0.0;
    } else {
      var rest := InstantaneousFrequency(phase[1..], sampleRate);
      InstantaneousFrequencyTelescopes(phase[1..], sampleRate);
      var xs := [PhaseRate(phase[0], phase[1], sampleRate)] + rest;
      assert InstantaneousFrequency(phase, sampleRate) == xs;
      assert xs[1..] == rest;
      assert phase[1..][|phase| - 2] == phase[|phase| - 1];
      PhaseRateAdds(phase[0], phase[1], phase[|phase| - 1], sampleRate);
    }
  }

  const AmThreshold: real := 0.1
  const FmThresholdHz: real := 1000.0

  /**
   * The ordered heuristic: amplitude spread above 0.1 means AM whatever the
   * frequency spread; otherwise frequency spread above 1000 Hz means FM;
   * otherwise unknown or a carrier.
   */
  function ClassifyModulation(amplitudeStd: real, frequencyStd: real): (t: string)
    ensures t == "Likely AM" <==> amplitudeStd > AmThreshold
    ensures t == "Likely FM" <==> amplitudeStd <= AmThreshold && frequencyStd > FmThresholdHz
    ensures t == "Unknown/CW" <==> amplitudeStd <= AmThreshold && frequencyStd <= FmThresholdHz
  {
    if amplitudeStd > AmThreshold then "Likely AM"
    else if frequencyStd > FmThresholdHz then "Likely FM"
    else "Unknown/CW"
  }

  datatype ModulationEstimate = ModulationEstimate(
    modulationType: string, amplitudeStd: real, frequencyStd: real, meanAmplitude: real)

  /**
   * `analyze_modulation`, given the instantaneous amplitude and unwrapped
   * phase of the analytic signal, and numpy's `std` and `mean`.
   */
  function AnalyzeModulation(amplitude: seq<real>, phase: seq<real>, sampleRate: real,
                             std: seq<real> -> real, mean: seq<real> -> real): (m: ModulationEstimate)
    ensures m.amplitudeStd == std(amplitude) && m.meanAmplitude == mean(amplitude)
    ensures m.frequencyStd == std(InstantaneousFrequency(phase, sampleRate))
    ensures m.modulationType == "Likely AM" <==> m.amplitudeStd > AmThreshold
    ensures m.modulationType == "Likely FM" <==> m.amplitudeStd <= AmThreshold && m.frequencyStd > FmThresholdHz
    ensures m.modulationType == "Unknown/CW" <==> m.amplitudeStd <= AmThreshold && m.frequencyStd <= FmThresholdHz
  {
    var ampStd := std(amplitude);
    var freqStd := std(InstantaneousFrequency(phase, sampleRate));
    ModulationEstimate(ClassifyModulation(ampStd, freqStd), ampStd, freqStd, mean(amplitude))
  }

  // ---------------------------------------------------------------------------
  // The analyzer object and its report
  // ---------------------------------------------------------------------------

  /** `SignalAnalyzer`'s state: `analysis_results` starts empty and nothing appends to it. */
  datatype SignalAnalyzer = SignalAnalyzer(sampleRate: int, filterBandwidth: real, analysisResults: seq<string>)

  function NewAnalyzer(sampleRate: int, filterBandwidth: real): (a: SignalAnalyzer)
    ensures a.sampleRate == sampleRate && a.filterBandwidth == filterBandwidth
    ensures |a.analysisResults| == 0
  {
    SignalAnalyzer(sampleRate, filterBandwidth, [])
  }

  const ReportTitle: string := "SIMPLEX SIGNAL ANALYSIS REPORT"
  const NoResultsLine: string := "No analysis results available."
  /** The rules under the report's title and under its results heading. */
  const HeaderRule: string := Repeat('=', 50)
  const ResultsRule: string := Repeat('-', 20)

  /**
   * The text `generate_report` writes, given the timestamp and Python's
   * `str` of the (float) filter bandwidth.
   */
  function GenerateReport(a: SignalAnalyzer, timestamp: string, floatRepr: real -> string): string {
    ReportHeaderText(a, timestamp, floatRepr) + ReportBodyText(a)
  }

  function ReportHeaderText(a: SignalAnalyzer, timestamp: string, floatRepr: real -> string): string {
    ReportTitle + "\n"
    + HeaderRule + "\n"
    + ("Generated: " + timestamp) + "\n"
    + ("Sample Rate: " + IntToString(a.sampleRate) + " Hz") + "\n"
    + ("Filter Bandwidth: " + floatRepr(a.filterBandwidth) + " Hz") + "\n"
    + "" + "\n"
  }

  function ReportBodyText(a: SignalAnalyzer): string {
    if |a.analysisResults| > 0
    then "ANALYSIS RESULTS:" + "\n" + ResultsRule + "\n" + ConcatLines(a.analysisResults)
    else NoResultsLine + "\n"
  }

  /** The report's header lines, as a reader splits them. */
  function ReportHeader(a: SignalAnalyzer, timestamp: string, floatRepr: real -> string): seq<string> {
    [ReportTitle, HeaderRule, "Generated: " + timestamp,
     "Sample Rate: " + IntToString(a.sampleRate) + " Hz",
     "Filter Bandwidth: " + floatRepr(a.filterBandwidth) + " Hz", ""]
  }

  /** The report's lines after the header. */
  function ReportBody(a: SignalAnalyzer): seq<string> {
    if |a.analysisResults| > 0
    then ["ANALYSIS RESULTS:", ResultsRule] + a.analysisResults
    else [NoResultsLine]
  }

  lemma ConcatLinesCons(x: string, xs: seq<string>)
    ensures ConcatLines([x] + xs) == x + "\n" + ConcatLines(xs)
  {
    assert ([x] + xs)[1..] == xs;
  }

  lemma SixLines(l0: string, l1: string, l2: string, l3: string, l4: string, l5: string)
    ensures ConcatLines([l0, l1, l2, l3, l4, l5])
      == l0 + "\n" + l1 + "\n" + l2 + "\n" + l3 + "\n" + l4 + "\n" + l5 + "\n"
  {
    ConcatLinesCons(l0, []);
    assert [l0] + [] == [l0];
    var t1 := l0 + "\n";
    SnocLine([l0], l1, t1);
    assert [l0] + [l1] == [l0, l1];
    var t2 := t1 + l1 + "\n";
    SnocLine([l0, l1], l2, t2);
    assert [l0, l1] + [l2] == [l0, l1, l2];
    var t3 := t2 + l2 + "\n";
    SnocLine([l0, l1, l2], l3, t3);
    assert [l0, l1, l2] + [l3] == [l0, l1, l2, l3];
    var t4 := t3 + l3 + "\n";
    SnocLine([l0, l1, l2, l3], l4, t4);
    assert [l0, l1, l2, l3] + [l4] == [l0, l1, l2, l3, l4];
    var t5 := t4 + l4 + "\n";
    SnocLine([l0, l1, l2, l3, l4], l5, t5);
    assert [l0, l1, l2, l3, l4] + [l5] == [l0, l1, l2, l3, l4, l5];
  }

  /** Appending one line to lines already written appends it and its break to the text. */
  lemma SnocLine(lines: seq<string>, x: string, text: string)
    requires ConcatLines(lines) == text
    ensures ConcatLines(lines + [x]) == text + x + "\n"
  {
    ConcatLinesAppend(lines, [x]);
    ConcatLinesCons(x, []);
    assert [x] + [] == [x];
  }

  lemma HeaderAsLines(a: SignalAnalyzer, timestamp: string, floatRepr: real -> string)
    ensures ConcatLines(ReportHeader(a, timestamp, floatRepr)) == ReportHeaderText(a, timestamp, floatRepr)
  {
    var rate := IntToString(a.sampleRate);
    var bw := floatRepr(a.filterBandwidth);
    SixLines(ReportTitle, HeaderRule, "Generated: " + timestamp,
             "Sample Rate: " + rate + " Hz", "Filter Bandwidth: " + bw + " Hz", "");
  }

  lemma BodyAsLines(a: SignalAnalyzer)
    ensures ConcatLines(ReportBody(a)) == ReportBodyText(a)
  {
    if |a.analysisResults| > 0 {
      var dashes := ResultsRule;
      assert ReportBody(a) == ["ANALYSIS RESULTS:"] + ([dashes] + a.analysisResults);
      ConcatLinesCons("ANALYSIS RESULTS:", [dashes] + a.analysisResults);
      ConcatLinesCons(dashes, a.analysisResults);
    } else {
      ConcatLinesCons(NoResultsLine, []);
    }
  }

  lemma SingleLineAppend(x: string, y: string)
    requires SingleLine(x) && SingleLine(y)
    ensures SingleLine(x + y)
  {
    forall i | 0 <= i < |x + y| ensures (x + y)[i] != '\n' {
      if i >= |x| { assert (x + y)[i] == y[i - |x|]; }
    }
  }

  lemma ConstantLinesSingle()
    ensures SingleLine(ReportTitle) && SingleLine(HeaderRule) && SingleLine("")
    ensures SingleLine("Generated: ") && SingleLine("Sample Rate: ") && SingleLine(" Hz")
    ensures SingleLine("Filter Bandwidth: ")
    ensures SingleLine("ANALYSIS RESULTS:") && SingleLine(ResultsRule) && SingleLine(NoResultsLine)
  {
    RuleSingle('=', 50);
    RuleSingle('-', 20);
    TitlesSingle();
    LabelsSingle();
  }

  lemma RuleSingle(c: char, n: nat)
    requires c != '\n'
    ensures SingleLine(Repeat(c, n))
  {
  }

  lemma TitlesSingle()
    ensures SingleLine(ReportTitle) && SingleLine("ANALYSIS RESULTS:") && SingleLine(NoResultsLine)
  {
  }

  lemma LabelsSingle()
    ensures SingleLine("") && SingleLine("Generated: ") && SingleLine("Sample Rate: ") && SingleLine(" Hz")
    ensures SingleLine("Filter Bandwidth: ")
  {
  }

  lemma HeaderSingle(a: SignalAnalyzer, timestamp: string, floatRepr: real -> string)
    requires SingleLine(timestamp) && SingleLine(floatRepr(a.filterBandwidth))
    ensures var h := ReportHeader(a, timestamp, floatRepr);
      forall k :: 0 <= k < |h| ==> SingleLine(h[k])
  {
    RuleSingle('=', 50);
    TitlesSingle();
    LabelsSingle();
    var rate := IntToString(a.sampleRate);
    var bw := floatRepr(a.filterBandwidth);
    assert SingleLine(rate);
    SingleLineAppend("Generated: ", timestamp);
    SingleLineAppend("Sample Rate: ", rate);
    SingleLineAppend("Sample Rate: " + rate, " Hz");
    SingleLineAppend("Filter Bandwidth: ", bw);
    SingleLineAppend("Filter Bandwidth: " + bw, " Hz");
    SixSingle(ReportTitle, HeaderRule, "Generated: " + timestamp,
              "Sample Rate: " + rate + " Hz", "Filter Bandwidth: " + bw + " Hz", "");
  }

  lemma SixSingle(l0: string, l1: string, l2: string, l3: string, l4: string, l5: string)
    requires SingleLine(l0) && SingleLine(l1) && SingleLine(l2)
    requires SingleLine(l3) && SingleLine(l4) && SingleLine(l5)
    ensures var h := [l0, l1, l2, l3, l4, l5];
      forall k :: 0 <= k < |h| ==> SingleLine(h[k])
  {
  }

  lemma BodySingle(a: SignalAnalyzer)
    requires forall k :: 0 <= k < |a.analysisResults| ==> SingleLine(a.analysisResults[k])
    ensures var b := ReportBody(a);
      forall k :: 0 <= k < |b| ==> SingleLine(b[k])
  {
    ConstantLinesSingle();
    var b := ReportBody(a);
    forall k | 0 <= k < |b| ensures SingleLine(b[k]) {
      if |a.analysisResults| > 0 && k >= 2 { assert b[k] == a.analysisResults[k - 2]; }
    }
  }

  lemma ReportLinesSingle(a: SignalAnalyzer, timestamp: string, floatRepr: real -> string)
    requires SingleLine(timestamp) && SingleLine(floatRepr(a.filterBandwidth))
    requires forall k :: 0 <= k < |a.analysisResults| ==> SingleLine(a.analysisResults[k])
    ensures var lines := ReportHeader(a, timestamp, floatRepr) + ReportBody(a);
      forall k :: 0 <= k < |lines| ==> SingleLine(lines[k])
  {
    var h := ReportHeader(a, timestamp, floatRepr);
    var b := ReportBody(a);
    HeaderSingle(a, timestamp, floatRepr);
    BodySingle(a);
    var lines := h + b;
    forall k | 0 <= k < |lines| ensures SingleLine(lines[k]) {
      if k < |h| { assert lines[k] == h[k]; } else { assert lines[k] == b[k - |h|]; }
    }
  }

  /**
   * Read back line by line, the report is its six header lines (title, 50
   * '=', timestamp, sample rate, bandwidth, blank), then its body: either the
   * no-results line, or the results heading, 20 '-' and one line per result.
   */
  lemma ReportLayout(a: SignalAnalyzer, timestamp: string, floatRepr: real -> string)
    requires SingleLine(timestamp) && SingleLine(floatRepr(a.filterBandwidth))
    requires forall k :: 0 <= k < |a.analysisResults| ==> SingleLine(a.analysisResults[k])
    ensures SplitLines(GenerateReport(a, timestamp, floatRepr)) == ReportHeader(a, timestamp, floatRepr) + ReportBody(a)
  {
    var h := ReportHeader(a, timestamp, floatRepr);
    var b := ReportBody(a);
    ConcatLinesAppend(h, b);
    HeaderAsLines(a, timestamp, floatRepr);
    BodyAsLines(a);
    ReportLinesSingle(a, timestamp, floatRepr);
    SplitConcatLines(h + b);
  }

  /** A freshly constructed analyzer always reports that no results are available. */
  lemma FreshReportHasNoResults(sampleRate: int, filterBandwidth: real, timestamp: string, floatRepr: real -> string)
    requires SingleLine(timestamp) && SingleLine(floatRepr(filterBandwidth))
    ensures var lines := SplitLines(GenerateReport(NewAnalyzer(sampleRate, filterBandwidth), timestamp, floatRepr));
      |lines| == 7 && lines[6] == NoResultsLine && lines[1] == HeaderRule
  {
    var a := NewAnalyzer(sampleRate, filterBandwidth);
    EmptyReportLines(a, timestamp, floatRepr);
    HeaderShape(a, timestamp, floatRepr);
    AppendLine(ReportHeader(a, timestamp, floatRepr), NoResultsLine);
  }

  /** A report with no results splits into its header and the no-results line. */
  lemma EmptyReportLines(a: SignalAnalyzer, timestamp: string, floatRepr: real -> string)
    requires |a.analysisResults| == 0
    requires SingleLine(timestamp) && SingleLine(floatRepr(a.filterBandwidth))
    ensures SplitLines(GenerateReport(a, timestamp, floatRepr)) == ReportHeader(a, timestamp, floatRepr) + [NoResultsLine]
  {
    ReportLayout(a, timestamp, floatRepr);
    assert ReportBody(a) == [NoResultsLine];
  }

  lemma HeaderShape(a: SignalAnalyzer, timestamp: string, floatRepr: real -> string)
    ensures |ReportHeader(a, timestamp, floatRepr)| == 6 && ReportHeader(a, timestamp, floatRepr)[1] == HeaderRule
  {
  }

  lemma AppendLine(h: seq<string>, x: string)
    ensures |h + [x]| == |h| + 1 && (h + [x])[|h|] == x
    ensures forall k :: 0 <= k < |h| ==> (h + [x])[k] == h[k]
  {
  }
}

=== FILE: signal_processor.dfy ===
/**
 * The capture controller (`SimplexSignalProcessor`): it owns the radio
 * handle, turns a duration into a sample count, performs one hardware read,
 * optionally runs the real-time analysis, and saves the samples once.
 *
 * The radio driver is modelled as a record of the calls made on it; what the
 * driver answers (samples, or an exception) is supplied by the caller.
 */
module SignalProcessor {
  import opened Wrappers
  import opened Numbers
  import opened SampleCodec
  import opened SignalAnalysis

  // ---------------------------------------------------------------------------
  // The radio handle
  // ---------------------------------------------------------------------------

  /** A call made on the RTL-SDR driver: a property assignment, a read, or `close()`. */
  datatype DeviceCall =
    | SetSampleRate(rate: int)
    | SetCenterFreq(hz: real)
    | SetGain(db: int)
    | ReadSamples(count: int)
    | Close

  /** An opened RTL-SDR handle and every call made on it, oldest first. */
  datatype Device = Device(index: int, calls: seq<DeviceCall>)

  function Reads(calls: seq<DeviceCall>): nat {
    if |calls| == 0 then 0 else (if calls[0].ReadSamples? then 1 else 0) + Reads(calls[1..])
  }

  function Closes(calls: seq<DeviceCall>): nat {
    if |calls| == 0 then 0 else (if calls[0].Close? then 1 else 0) + Closes(calls[1..])
  }

  lemma {:induction false} CountsAppend(a: seq<DeviceCall>, b: seq<DeviceCall>)
    ensures Reads(a + b) == Reads(a) + Reads(b)
    ensures Closes(a + b) == Closes(a) + Closes(b)
  {
    if |a| > 0 {
      assert (a + b)[1..] == a[1..] + b;
      CountsAppend(a[1..], b);
    } else {
      assert a + b == b;
    }
  }

  /** The frequency the device is tuned to: the last one assigned, if any. */
  function TunedFrequency(calls: seq<DeviceCall>): Option<real> {
    if |calls| == 0 then None
    else if calls[|calls| - 1].SetCenterFreq? then Some(calls[|calls| - 1].hz)
    else TunedFrequency(calls[..|calls| - 1])
  }

  /** The gain the device is set to: the last one assigned, if any. */
  function TunedGain(calls: seq<DeviceCall>): Option<int> {
    if |calls| == 0 then None
    else if calls[|calls| - 1].SetGain? then Some(calls[|calls| - 1].db)
    else TunedGain(calls[..|calls| - 1])
  }

  /** The sample rate the device is set to: the last one assigned, if any. */
  function TunedSampleRate(calls: seq<DeviceCall>): Option<int> {
    if |calls| == 0 then None
    else if calls[|calls| - 1].SetSampleRate? then Some(calls[|calls| - 1].rate)
    else TunedSampleRate(calls[..|calls| - 1])
  }

  /** Performs `call` on the handle. */
  function Perform(d: Device, call: DeviceCall): (e: Device)
    ensures e.index == d.index && e.calls == d.calls + [call]
    ensures Reads(e.calls) == Reads(d.calls) + (if call.ReadSamples? then 1 else 0)
    ensures Closes(e.calls) == Closes(d.calls) + (if call.Close? then 1 else 0)
    ensures TunedFrequency(e.calls) == if call.SetCenterFreq? then Some(call.hz) else TunedFrequency(d.calls)
    ensures TunedGain(e.calls) == if call.SetGain? then Some(call.db) else TunedGain(d.calls)
    ensures TunedSampleRate(e.calls) == if call.SetSampleRate? then Some(call.rate) else TunedSampleRate(d.calls)
  {
    var e := Device(d.index, d.calls + [call]);
    assert e.calls[..|e.calls| - 1] == d.calls;
    CountsAppend(d.calls, [call]);
    assert [call][1..] == [];
    e
  }

  // ---------------------------------------------------------------------------
  // The processor
  // ---------------------------------------------------------------------------

  datatype Processor = Processor(
    deviceIndex: int, sampleRate: int, centerFreq: real, gain: int,
    sdr: Option<Device>, isCapturing: bool)

  /** The stored settings are the ones the device was last given. */
  predicate InSync(p: Processor) {
    p.sdr.Some? ==>
      && TunedFrequency(p.sdr.value.calls) == Some(p.centerFreq)
      && TunedGain(p.sdr.value.calls) == Some(p.gain)
      && TunedSampleRate(p.sdr.value.calls) == Some(p.sampleRate)
  }

  /** How the driver answers `_initialize_sdr`. */
  datatype InitResponse =
    | InitOk
      /** `RtlSdr(device_index=...)` raises: no handle was opened. */
    | OpenFails
      /** The handle opened, the first `applied` property assignments took, and the next one raised. */
    | ConfigureFails(applied: nat)

  /** The exception `__init__` re-raises, with the handle it may have opened. */
  datatype InitFailure = InitFailure(handle: Option<Device>)

  /** `_initialize_sdr`'s assignments: sample rate, then centre frequency, then gain. */
  function ConfigurationCalls(sampleRate: int, centerFreq: real, gain: int): seq<DeviceCall> {
    [SetSampleRate(sampleRate), SetCenterFreq(centerFreq), SetGain(gain)]
  }

  /**
   * `SimplexSignalProcessor(...)`: opens and configures the device, or
   * re-raises the driver's exception. A handle that opened but failed to
   * configure is neither closed nor kept by any processor.
   */
  function NewProcessor(deviceIndex: int, sampleRate: int, centerFreq: real, gain: int,
                        init: InitResponse): (r: Result<Processor, InitFailure>)
    ensures r.Success? <==> init.InitOk?
    ensures r.Success? ==>
      && r.value.sdr.Some? && !r.value.isCapturing && InSync(r.value)
      && r.value.deviceIndex == deviceIndex && r.value.sampleRate == sampleRate
      && r.value.centerFreq == centerFreq && r.value.gain == gain
      && Reads(r.value.sdr.value.calls) == 0 && Closes(r.value.sdr.value.calls) == 0
    ensures init.OpenFails? ==> r == Failure(InitFailure(None))
    ensures init.ConfigureFails? ==>
      && r.Failure? && r.error.handle.Some?
      && Reads(r.error.handle.value.calls) == 0 && Closes(r.error.handle.value.calls) == 0
  {
    var handle := Device(deviceIndex, []);
    var configured := Perform(Perform(Perform(handle, SetSampleRate(sampleRate)), SetCenterFreq(centerFreq)), SetGain(gain));
    match init
    case InitOk => Success(Processor(deviceIndex, sampleRate, centerFreq, gain, Some(configured), false))
    case OpenFails => Failure(InitFailure(None))
    case ConfigureFails(applied) =>
      var done := if applied < 2 then applied else 2;
      var calls := ConfigurationCalls(sampleRate, centerFreq, gain)[..done];
      assert calls == [] || calls == [SetSampleRate(sampleRate)]
          || calls == [SetSampleRate(sampleRate), SetCenterFreq(centerFreq)];
      assert Reads([SetSampleRate(sampleRate), SetCenterFreq(centerFreq)]) == 0;
      assert Closes([SetSampleRate(sampleRate), SetCenterFreq(centerFreq)]) == 0;
      Failure(InitFailure(Some(Device(deviceIndex, calls))))
  }

  // ---------------------------------------------------------------------------
  // Setters and cleanup
  // ---------------------------------------------------------------------------

  /** The driver refused a property assignment; the exception reaches the caller. */
  datatype SetterError = Rejected

  /**
   * `set_frequency`: without a device, nothing changes. With one, the
   * assignment to the driver comes first; if the driver refuses it, the
   * exception propagates before the stored frequency is updated.
   */
  function SetFrequency(p: Processor, freqHz: real, accepted: bool): (r: Result<Processor, SetterError>)
    ensures p.sdr.None? ==> r == Success(p)
    ensures p.sdr.Some? && !accepted ==> r == Failure(Rejected)
    ensures r.Success? <==> p.sdr.None? || accepted
    ensures p.sdr.Some? && accepted ==>
      var q := r.value;
      && q.sdr.Some? && q.centerFreq == freqHz
      && TunedFrequency(q.sdr.value.calls) == Some(freqHz)
      && q == p.(sdr := q.sdr, centerFreq := freqHz)
      && Reads(q.sdr.value.calls) == Reads(p.sdr.value.calls)
      && Closes(q.sdr.value.calls) == Closes(p.sdr.value.calls)
    ensures InSync(p) && r.Success? ==> InSync(r.value)
  {
    if p.sdr.None? then Success(p)
    else if !accepted then Failure(Rejected)
    else Success(p.(sdr := Some(Perform(p.sdr.value, SetCenterFreq(freqHz))), centerFreq := freqHz))
  }

  /**
   * `set_gain`: without a device, nothing changes. With one, the driver is
   * given the gain first; if it refuses, the stored gain is not updated.
   */
  function SetGainDb(p: Processor, gainDb: int, accepted: bool): (r: Result<Processor, SetterError>)
    ensures p.sdr.None? ==> r == Success(p)
    ensures p.sdr.Some? && !accepted ==> r == Failure(Rejected)
    ensures r.Success? <==> p.sdr.None? || accepted
    ensures p.sdr.Some? && accepted ==>
      var q := r.value;
      && q.sdr.Some? && q.gain == gainDb
      && TunedGain(q.sdr.value.calls) == Some(gainDb)
      && q == p.(sdr := q.sdr, gain := gainDb)
      && Reads(q.sdr.value.calls) == Reads(p.sdr.value.calls)
      && Closes(q.sdr.value.calls) == Closes(p.sdr.value.calls)
    ensures InSync(p) && r.Success? ==> InSync(r.value)
  {
    if p.sdr.None? then Success(p)
    else if !accepted then Failure(Rejected)
    else Success(p.(sdr := Some(Perform(p.sdr.value, SetGain(gainDb))), gain := gainDb))
  }

  /**
   * `cleanup`: with a device, closes it once more (the handle is kept, so
   * a second cleanup closes it again); without one, nothing changes.
   */
  function Cleanup(p: Processor): (q: Processor)
    ensures p.sdr.None? ==> q == p
    ensures p.sdr.Some? ==>
      && q.sdr.Some? && Closes(q.sdr.value.calls) == Closes(p.sdr.value.calls) + 1
      && Reads(q.sdr.value.calls) == Reads(p.sdr.value.calls)
      && q.centerFreq == p.centerFreq && q.gain == p.gain && q.sampleRate == p.sampleRate
    ensures InSync(p) ==> InSync(q)
  {
    if p.sdr.Some? then p.(sdr := Some(Perform(p.sdr.value, Close))) else p
  }

  /** The handle is kept after `cleanup`, so a second cleanup calls the driver's `close()` again. */
  lemma CleanupTwiceClosesTwice(p: Processor)
    requires p.sdr.Some?
    ensures Closes(Cleanup(Cleanup(p)).sdr.value.calls) == Closes(p.sdr.value.calls) + 2
  {
  }

  // ---------------------------------------------------------------------------
  // capture_signal
  // ---------------------------------------------------------------------------

  /** `int(duration * sample_rate)`: the product truncated toward zero. */
  function NumSamples(duration: real, sampleRate: int): (n: int)
    ensures duration * (sampleRate as real) >= 0.0 ==>
      n >= 0 && n as real <= duration * (sampleRate as real) < n as real + 1.0
    ensures duration * (sampleRate as real) < 0.0 ==>
      n <= 0 && n as real - 1.0 < duration * (sampleRate as real) <= n as real
  {
    TruncateToInt(duration * (sampleRate as real))
  }

  /** One second at the default 2.048 MS/s is exactly 2,048,000 samples. */
  lemma DefaultCaptureSize()
    ensures NumSamples(1.0, 2048000) == 2048000
    ensures NumSamples(30.0, 2048000) == 61440000
  {
  }

  /** How the driver answers `read_samples`. */
  datatype ReadResponse =
    | Delivered(samples: seq<Complex>)
    | ReadFails
      /** SIGINT arrived while the read blocked; the handler's `sys.exit(0)` raised `SystemExit`. */
    | ReadInterrupted

  /**
   * What the world answers during one capture: the read, whether the file
   * could be written, float32 rounding, and the numerics of the analysis (the
   * dB power of each bin of a buffer's FFT, and which bins `find_peaks` picks).
   */
  datatype CaptureEnv = CaptureEnv(
    read: ReadResponse, writeOk: bool, toF32: real -> F32Bits,
    binPower: (seq<Complex>, nat) -> real, peakSelect: nat -> bool)

  /** `20*log10(|fft(samples)| + 1e-12)`: one dB value per sample, as `fft` returns. */
  function PowerSpectrum(samples: seq<Complex>, env: CaptureEnv): (power: seq<real>)
    ensures |power| == |samples|
  {
    seq(|samples|, i requires 0 <= i < |samples| => env.binPower(samples, i))
  }

  /** One logged peak: its absolute frequency in MHz and its power in dB. */
  datatype PeakLine = PeakLine(freqMHz: real, power: real)

  /** What a capture does, in order. */
  datatype Step =
    | Read(count: int)
    | Analysed(top: seq<PeakLine>)
    | PlottedSpectrum
    | PlottedWaterfall
    | Saved(file: SavedFile)

  datatype CaptureError =
    | NoDevice
    | DeviceFailure
    | Interrupted
    | InvalidFormat(format: string)
      /** `wave` refused the frame rate of a WAV save. */
    | WavRejected(rate: int)
    | WriteFailure
      /** `_perform_realtime_analysis` raised, in the peak detection or in a plot. */
    | AnalysisFailure

  /** The capture error a failed save re-raises. */
  function SaveFailure(e: FormatError): (c: CaptureError)
    ensures e.UnsupportedFormat? ==> c == InvalidFormat(e.format)
    ensures e.BadFrameRate? ==> c == WavRejected(e.rate)
  {
    match e
    case UnsupportedFormat(f) => InvalidFormat(f)
    case BadFrameRate(rate) => WavRejected(rate)
  }

  datatype Capture = Capture(proc: Processor, steps: seq<Step>, result: Result<seq<Complex>, CaptureError>)

  /** The at most five strongest peaks, each at `center_freq + freq`, in MHz. */
  function TopPeaks(peaks: seq<Peak>, centerFreq: real): (r: seq<PeakLine>)
    ensures |r| == if |peaks| < 5 then |peaks| else 5
    ensures forall i :: 0 <= i < |r| ==>
      r[i].freqMHz * 1000000.0 == centerFreq + peaks[i].freq && r[i].power == peaks[i].power
  {
    var top := if |peaks| < 5 then peaks else peaks[..5];
    seq(|top|, i requires 0 <= i < |top| => PeakLine((centerFreq + top[i].freq) / 1000000.0, top[i].power))
  }

  /** Of peaks sorted strongest first, no peak left out of the top five is stronger than one shown. */
  lemma TopPeaksAreStrongest(peaks: seq<Peak>, centerFreq: real)
    requires SortedByPower(peaks)
    ensures forall i, j :: 0 <= i < |TopPeaks(peaks, centerFreq)| <= j < |peaks| ==>
      TopPeaks(peaks, centerFreq)[i].power >= peaks[j].power
  {
  }

  /** `detect_signal_peaks` raises on this buffer: `fft` refuses it empty, or `1/self.sample_rate` divides by zero. */
  predicate DetectionFails(samples: seq<Complex>, analyzer: SignalAnalyzer) {
    |samples| == 0 || analyzer.sampleRate == 0
  }

  /** The peaks `detect_signal_peaks` finds in a buffer, or why it raises. */
  function BufferPeaks(samples: seq<Complex>, analyzer: SignalAnalyzer, env: CaptureEnv): (r: Result<seq<Peak>, PeakError>)
    ensures r.Failure? <==> DetectionFails(samples, analyzer)
  {
    DetectPeaks(analyzer, PowerSpectrum(samples, env), env.peakSelect)
  }

  /** `plot_waterfall`'s STFT segment length and overlap. */
  const WaterfallSegment: nat := 1024
  const WaterfallOverlap: nat := WaterfallSegment / 2

  /**
   * scipy's `spectrogram` shortens the segment to the length of a shorter
   * buffer, and raises when the overlap is not below the segment length.
   */
  predicate WaterfallRaises(n: nat) {
    WaterfallOverlap >= (if n < WaterfallSegment then n else WaterfallSegment)
  }

  /** The waterfall plot raises exactly on buffers of at most 512 samples. */
  lemma WaterfallRaisesShort(n: nat)
    ensures WaterfallRaises(n) <==> n <= 512
  {
  }

  /**
   * Plotting raises: the spectrum's `1/sample_rate` at the processor's rate
   * of 0, or the waterfall on a short buffer.
   */
  predicate PlotFails(samples: seq<Complex>, sampleRate: int) {
    sampleRate == 0 || WaterfallRaises(|samples|)
  }

  /** Why `_perform_realtime_analysis` raised. */
  datatype AnalysisError =
    | DetectionError(cause: PeakError)
    | SpectrumPlotError
    | WaterfallPlotError

  /** The steps an analysis took before it returned or raised, and what it raised. */
  datatype AnalysisRun = AnalysisRun(steps: seq<Step>, failure: Option<AnalysisError>)

  /**
   * `_perform_realtime_analysis`: detect and log the top peaks, then, if
   * asked to, plot the spectrum at the processor's rate and the waterfall.
   * The detection raises before anything is logged; a plot that raises
   * leaves the steps taken before it.
   */
  function RealtimeAnalysis(samples: seq<Complex>, analyzer: SignalAnalyzer, centerFreq: real, sampleRate: int,
                            enablePlotting: bool, env: CaptureEnv): (r: AnalysisRun)
    ensures r.failure.None? <==>
      !DetectionFails(samples, analyzer) && !(enablePlotting && PlotFails(samples, sampleRate))
    ensures DetectionFails(samples, analyzer) ==>
      r == AnalysisRun([], Some(DetectionError(BufferPeaks(samples, analyzer, env).error)))
    ensures !DetectionFails(samples, analyzer) ==>
      && |r.steps| >= 1
      && r.steps[0] == Analysed(TopPeaks(BufferPeaks(samples, analyzer, env).value, centerFreq))
    ensures forall i :: 1 <= i < |r.steps| ==> r.steps[i].PlottedSpectrum? || r.steps[i].PlottedWaterfall?
    ensures forall i :: 0 <= i < |r.steps| ==> !r.steps[i].Read? && !r.steps[i].Saved?
    ensures HasAnalysis(r.steps) <==> !DetectionFails(samples, analyzer)
    ensures HasPlots(r.steps) <==> !DetectionFails(samples, analyzer) && enablePlotting && sampleRate != 0
    ensures HasWaterfall(r.steps) <==>
      !DetectionFails(samples, analyzer) && enablePlotting && !PlotFails(samples, sampleRate)
    ensures !DetectionFails(samples, analyzer) && enablePlotting && sampleRate == 0 ==>
      r.failure == Some(SpectrumPlotError)
    ensures !DetectionFails(samples, analyzer) && enablePlotting && sampleRate != 0 && WaterfallRaises(|samples|) ==>
      r.failure == Some(WaterfallPlotError)
  {
    match BufferPeaks(samples, analyzer, env)
    case Failure(e) =>
      var none: seq<Step> := [];
      assert !HasAnalysis(none) && !HasPlots(none) && !HasWaterfall(none);
      AnalysisRun(none, Some(DetectionError(e)))
    case Success(peaks) => PeakSteps(peaks, centerFreq, |samples|, sampleRate, enablePlotting)
  }

  /**
   * The log of the top peaks, then, when plotting is enabled, the spectrum
   * plot (refused at rate 0) and the waterfall of `n` samples (refused on a
   * short buffer), stopping at the first plot that raises.
   */
  function PeakSteps(peaks: seq<Peak>, centerFreq: real, n: nat, sampleRate: int, enablePlotting: bool): (r: AnalysisRun)
    ensures |r.steps| >= 1 && r.steps[0] == Analysed(TopPeaks(peaks, centerFreq))
    ensures forall i :: 1 <= i < |r.steps| ==> r.steps[i].PlottedSpectrum? || r.steps[i].PlottedWaterfall?
    ensures forall i :: 0 <= i < |r.steps| ==> !r.steps[i].Read? && !r.steps[i].Saved?
    ensures HasAnalysis(r.steps)
    ensures HasPlots(r.steps) <==> enablePlotting && sampleRate != 0
    ensures HasWaterfall(r.steps) <==> enablePlotting && sampleRate != 0 && !WaterfallRaises(n)
    ensures r.failure.None? <==> !enablePlotting || (sampleRate != 0 && !WaterfallRaises(n))
    ensures enablePlotting && sampleRate == 0 ==> r.failure == Some(SpectrumPlotError)
    ensures enablePlotting && sampleRate != 0 && WaterfallRaises(n) ==> r.failure == Some(WaterfallPlotError)
  {
    var first := Analysed(TopPeaks(peaks, centerFreq));
    if !enablePlotting then
      AnalysisRun([first], None)
    else if sampleRate == 0 then
      AnalysisRun([first], Some(SpectrumPlotError))
    else if WaterfallRaises(n) then
      var steps := [first, PlottedSpectrum];
      assert steps[1].PlottedSpectrum?;
      AnalysisRun(steps, Some(WaterfallPlotError))
    else
      var steps := [first, PlottedSpectrum, PlottedWaterfall];
      assert steps[1].PlottedSpectrum? && steps[2].PlottedWaterfall?;
      AnalysisRun(steps, None)
  }

  /** The analysis runs on this capture and its peaks are detected and logged. */
  predicate PeaksLogged(samples: seq<Complex>, analyzer: Option<SignalAnalyzer>, enableAnalysis: bool) {
    enableAnalysis && analyzer.Some? && !DetectionFails(samples, analyzer.value)
  }

  /** The analysis runs on this capture and raises, in the detection or in a plot at `sampleRate`. */
  predicate AnalysisFails(samples: seq<Complex>, sampleRate: int, analyzer: Option<SignalAnalyzer>,
                          enableAnalysis: bool, enablePlotting: bool) {
    && enableAnalysis && analyzer.Some?
    && (DetectionFails(samples, analyzer.value) || (enablePlotting && PlotFails(samples, sampleRate)))
  }

  /** What happens after a read that delivered: the optional analysis, then the save. */
  datatype Outcome = Outcome(steps: seq<Step>, result: Result<seq<Complex>, CaptureError>)

  predicate HasAnalysis(steps: seq<Step>) {
    exists i :: 0 <= i < |steps| && steps[i].Analysed?
  }

  predicate HasPlots(steps: seq<Step>) {
    exists i :: 0 <= i < |steps| && (steps[i].PlottedSpectrum? || steps[i].PlottedWaterfall?)
  }

  predicate HasWaterfall(steps: seq<Step>) {
    exists i :: 0 <= i < |steps| && steps[i].PlottedWaterfall?
  }

  /**
   * The part of `capture_signal` after a successful read. Analysis runs only
   * when it is enabled and an analyzer is given, and if it raises nothing is
   * saved; otherwise the save comes last and is the only way to succeed.
   */
  function AfterRead(samples: seq<Complex>, centerFreq: real, sampleRate: int,
                     outputFile: string, format: string,
                     analyzer: Option<SignalAnalyzer>, enableAnalysis: bool, enablePlotting: bool,
                     env: CaptureEnv): (o: Outcome)
    ensures forall i :: 0 <= i < |o.steps| ==> !o.steps[i].Read?
    ensures HasAnalysis(o.steps) <==> PeaksLogged(samples, analyzer, enableAnalysis)
    ensures HasPlots(o.steps) <==> HasAnalysis(o.steps) && enablePlotting && sampleRate != 0
    ensures o.result.Success? <==>
      && !AnalysisFails(samples, sampleRate, analyzer, enableAnalysis, enablePlotting)
      && Saveable(format, sampleRate) && env.writeOk
    ensures forall i :: 0 <= i < |o.steps| - 1 ==> !o.steps[i].Saved?
    ensures o.result.Success? <==> |o.steps| > 0 && o.steps[|o.steps| - 1].Saved?
    ensures o.result.Success? ==>
      && o.result.value == samples
      && o.steps[|o.steps| - 1] == Saved(SaveSamples(samples, outputFile, format, sampleRate, env.toF32).value)
    ensures AnalysisFails(samples, sampleRate, analyzer, enableAnalysis, enablePlotting) ==>
      o.result == Failure(AnalysisFailure)
    ensures !AnalysisFails(samples, sampleRate, analyzer, enableAnalysis, enablePlotting) ==>
      && (format != "wav" && format != "raw" ==> o.result == Failure(InvalidFormat(format)))
      && (format == "wav" && sampleRate <= 0 ==> o.result == Failure(WavRejected(sampleRate)))
      && (Saveable(format, sampleRate) && !env.writeOk ==> o.result == Failure(WriteFailure))
  {
    var run := AnalysisSteps(samples, centerFreq, sampleRate, analyzer, enableAnalysis, enablePlotting, env);
    if run.failure.Some? then
      assert |run.steps| > 0 ==> !run.steps[|run.steps| - 1].Saved?;
      Outcome(run.steps, Failure(AnalysisFailure))
    else
      Finish(run.steps, SaveSamples(samples, outputFile, format, sampleRate, env.toF32), env.writeOk, samples)
  }

  /**
   * Closes a capture after its analysis steps: a save the format and rate
   * allow and the file system accepts is appended last and returns the samples.
   */
  function Finish(analysis: seq<Step>, saved: Result<SavedFile, FormatError>, writeOk: bool,
                  samples: seq<Complex>): (o: Outcome)
    requires forall i :: 0 <= i < |analysis| ==> !analysis[i].Read? && !analysis[i].Saved?
    ensures forall i :: 0 <= i < |o.steps| ==> !o.steps[i].Read?
    ensures HasAnalysis(o.steps) <==> HasAnalysis(analysis)
    ensures HasPlots(o.steps) <==> HasPlots(analysis)
    ensures o.result.Success? <==> saved.Success? && writeOk
    ensures forall i :: 0 <= i < |o.steps| - 1 ==> !o.steps[i].Saved?
    ensures o.result.Success? <==> |o.steps| > 0 && o.steps[|o.steps| - 1].Saved?
    ensures o.result.Success? ==> o.result.value == samples && o.steps[|o.steps| - 1] == Saved(saved.value)
    ensures saved.Failure? ==> o.result == Failure(SaveFailure(saved.error))
    ensures saved.Success? && !writeOk ==> o.result == Failure(WriteFailure)
  {
    if saved.Failure? then
      assert |analysis| > 0 ==> !analysis[|analysis| - 1].Saved?;
      Outcome(analysis, Failure(SaveFailure(saved.error)))
    else if writeOk then
      var steps := analysis + [Saved(saved.value)];
      AppendSaved(analysis, saved.value);
      assert steps[|steps| - 1] == Saved(saved.value);
      Outcome(steps, Success(samples))
    else
      assert |analysis| > 0 ==> !analysis[|analysis| - 1].Saved?;
      Outcome(analysis, Failure(WriteFailure))
  }

  /**
   * The analysis steps of a capture: none unless analysis is enabled and an
   * analyzer is given, and a failure when the analysis raises.
   */
  function AnalysisSteps(samples: seq<Complex>, centerFreq: real, sampleRate: int, analyzer: Option<SignalAnalyzer>,
                         enableAnalysis: bool, enablePlotting: bool, env: CaptureEnv): (r: AnalysisRun)
    ensures r.failure.Some? <==> AnalysisFails(samples, sampleRate, analyzer, enableAnalysis, enablePlotting)
    ensures forall i :: 0 <= i < |r.steps| ==> !r.steps[i].Read? && !r.steps[i].Saved?
    ensures HasAnalysis(r.steps) <==> PeaksLogged(samples, analyzer, enableAnalysis)
    ensures HasPlots(r.steps) <==> PeaksLogged(samples, analyzer, enableAnalysis) && enablePlotting && sampleRate != 0
  {
    if enableAnalysis && analyzer.Some? then
      RealtimeAnalysis(samples, analyzer.value, centerFreq, sampleRate, enablePlotting, env)
    else
      var none: seq<Step> := [];
      assert !HasAnalysis(none) && !HasPlots(none);
      AnalysisRun(none, None)
  }

  /** Appending the save keeps which analysis and plot steps a capture has. */
  lemma AppendSaved(steps: seq<Step>, file: SavedFile)
    ensures HasAnalysis(steps + [Saved(file)]) <==> HasAnalysis(steps)
    ensures HasPlots(steps + [Saved(file)]) <==> HasPlots(steps)
    ensures (forall i :: 0 <= i < |steps| ==> !steps[i].Read? && !steps[i].Saved?) ==>
      var s := steps + [Saved(file)];
      && (forall i :: 0 <= i < |s| ==> !s[i].Read?)
      && (forall i :: 0 <= i < |s| - 1 ==> !s[i].Saved?)
  {
    var s := steps + [Saved(file)];
    if HasAnalysis(s) {
      var i :| 0 <= i < |s| && s[i].Analysed?;
      assert i < |steps| && steps[i] == s[i];
    }
    if HasAnalysis(steps) {
      var i :| 0 <= i < |steps| && steps[i].Analysed?;
      assert s[i] == steps[i];
    }
    if HasPlots(s) {
      var i :| 0 <= i < |s| && (s[i].PlottedSpectrum? || s[i].PlottedWaterfall?);
      assert i < |steps| && steps[i] == s[i];
    }
    if HasPlots(steps) {
      var i :| 0 <= i < |steps| && (steps[i].PlottedSpectrum? || steps[i].PlottedWaterfall?);
      assert s[i] == steps[i];
    }
  }

  /**
   * `capture_signal`: one read of `int(duration * sample_rate)` samples; then,
   * only if analysis is enabled and an analyzer is given, the analysis; then
   * the save. Any exception is re-raised, and `is_capturing` is false
   * afterwards on every path.
   */
  function CaptureSignal(p: Processor, duration: real, outputFile: string, format: string,
                         analyzer: Option<SignalAnalyzer>, enableAnalysis: bool, enablePlotting: bool,
                         env: CaptureEnv): (c: Capture)
    ensures !c.proc.isCapturing
    ensures c.proc == p.(sdr := c.proc.sdr, isCapturing := false)
    ensures p.sdr.None? ==> c.proc.sdr.None? && c.steps == [] && c.result == Failure(NoDevice)
    ensures p.sdr.Some? ==>
      && c.proc.sdr == Some(Perform(p.sdr.value, ReadSamples(NumSamples(duration, p.sampleRate))))
      && |c.steps| >= 1 && c.steps[0] == Read(NumSamples(duration, p.sampleRate))
    ensures forall i :: 1 <= i < |c.steps| ==> !c.steps[i].Read?
    ensures c.result.Success? <==>
      && p.sdr.Some? && env.read.Delivered?
      && !AnalysisFails(env.read.samples, p.sampleRate, analyzer, enableAnalysis, enablePlotting)
      && Saveable(format, p.sampleRate) && env.writeOk
    ensures c.result.Success? ==> c.result.value == env.read.samples
    ensures c.result == Failure(Interrupted) <==> p.sdr.Some? && env.read.ReadInterrupted?
    ensures c.result == Failure(DeviceFailure) <==> p.sdr.Some? && env.read.ReadFails?
    ensures c.result == Failure(AnalysisFailure) <==>
      p.sdr.Some? && env.read.Delivered? && AnalysisFails(env.read.samples, p.sampleRate, analyzer, enableAnalysis, enablePlotting)
    ensures c.result == Failure(WavRejected(p.sampleRate)) <==>
      && p.sdr.Some? && env.read.Delivered?
      && !AnalysisFails(env.read.samples, p.sampleRate, analyzer, enableAnalysis, enablePlotting)
      && format == "wav" && p.sampleRate <= 0
    ensures InSync(p) ==> InSync(c.proc)
  {
    var n := NumSamples(duration, p.sampleRate);
    if p.sdr.None? then
      Capture(p.(isCapturing := false), [], Failure(NoDevice))
    else
      var q := p.(sdr := Some(Perform(p.sdr.value, ReadSamples(n))), isCapturing := false);
      match env.read
      case ReadFails => Capture(q, [Read(n)], Failure(DeviceFailure))
      case ReadInterrupted => Capture(q, [Read(n)], Failure(Interrupted))
      case Delivered(samples) =>
        var o := AfterRead(samples, p.centerFreq, p.sampleRate, outputFile, format,
                           analyzer, enableAnalysis, enablePlotting, env);
        Capture(q, [Read(n)] + o.steps, o.result)
  }

  /**
   * The peaks are logged iff the read delivered, `enable_analysis` is set, an
   * analyzer is given and the peak detection does not raise; plots are drawn
   * only after that log, at a non-zero processor rate, so `enable_plotting`
   * alone never triggers either.
   */
  lemma AnalysisGate(p: Processor, duration: real, outputFile: string, format: string,
                     analyzer: Option<SignalAnalyzer>, enableAnalysis: bool, enablePlotting: bool,
                     env: CaptureEnv)
    ensures var c := CaptureSignal(p, duration, outputFile, format, analyzer, enableAnalysis, enablePlotting, env);
      && (HasAnalysis(c.steps) <==>
            p.sdr.Some? && env.read.Delivered? && PeaksLogged(env.read.samples, analyzer, enableAnalysis))
      && (HasPlots(c.steps) <==> HasAnalysis(c.steps) && enablePlotting && p.sampleRate != 0)
  {
    var c := CaptureSignal(p, duration, outputFile, format, analyzer, enableAnalysis, enablePlotting, env);
    if p.sdr.Some? && env.read.Delivered? {
      var o := AfterRead(env.read.samples, p.centerFreq, p.sampleRate, outputFile, format,
                         analyzer, enableAnalysis, enablePlotting, env);
      assert c.steps == [c.steps[0]] + o.steps;
      ShiftedSteps(c.steps[0], o.steps);
    } else {
      assert |c.steps| <= 1 && (|c.steps| == 1 ==> c.steps[0].Read?);
    }
  }

  /** Putting the read in front of later steps neither adds nor removes analysis or plots. */
  lemma ShiftedSteps(first: Step, rest: seq<Step>)
    requires first.Read?
    ensures HasAnalysis([first] + rest) <==> HasAnalysis(rest)
    ensures HasPlots([first] + rest) <==> HasPlots(rest)
  {
    var s := [first] + rest;
    if HasAnalysis(s) {
      var i :| 0 <= i < |s| && s[i].Analysed?;
      assert rest[i - 1] == s[i];
    }
    if HasAnalysis(rest) {
      var i :| 0 <= i < |rest| && rest[i].Analysed?;
      assert s[i + 1] == rest[i];
    }
    if HasPlots(s) {
      var i :| 0 <= i < |s| && (s[i].PlottedSpectrum? || s[i].PlottedWaterfall?);
      assert rest[i - 1] == s[i];
    }
    if HasPlots(rest) {
      var i :| 0 <= i < |rest| && (rest[i].PlottedSpectrum? || rest[i].PlottedWaterfall?);
      assert s[i + 1] == rest[i];
    }
  }

  /**
   * The file is written at most once, as the last step, and exactly when the
   * capture succeeds.
   */
  lemma SaveIsLast(p: Processor, duration: real, outputFile: string, format: string,
                   analyzer: Option<SignalAnalyzer>, enableAnalysis: bool, enablePlotting: bool,
                   env: CaptureEnv)
    ensures var c := CaptureSignal(p, duration, outputFile, format, analyzer, enableAnalysis, enablePlotting, env);
      && (forall i :: 0 <= i < |c.steps| - 1 ==> !c.steps[i].Saved?)
      && (c.result.Success? <==> |c.steps| > 0 && c.steps[|c.steps| - 1].Saved?)
  {
    var c := CaptureSignal(p, duration, outputFile, format, analyzer, enableAnalysis, enablePlotting, env);
    if p.sdr.Some? && env.read.Delivered? {
      var o := AfterRead(env.read.samples, p.centerFreq, p.sampleRate, outputFile, format,
                         analyzer, enableAnalysis, enablePlotting, env);
      var n := NumSamples(duration, p.sampleRate);
      assert c.steps == [Read(n)] + o.steps && c.result == o.result;
      ReadThenSteps(n, o.steps);
    } else {
      assert c.result.Failure? && |c.steps| <= 1 && (|c.steps| == 1 ==> c.steps[0].Read?);
    }
  }

  /** Putting the read in front keeps where the save is. */
  lemma ReadThenSteps(n: int, rest: seq<Step>)
    ensures var s := [Read(n)] + rest;
      && ((forall i :: 0 <= i < |rest| - 1 ==> !rest[i].Saved?) ==> (forall i :: 0 <= i < |s| - 1 ==> !s[i].Saved?))
      && (|s| > 0 && s[|s| - 1].Saved? <==> |rest| > 0 && rest[|rest| - 1].Saved?)
  {
    var s := [Read(n)] + rest;
    assert forall i :: 1 <= i < |s| ==> s[i] == rest[i - 1];
  }

  /**
   * An unknown format fails only after the read (and after an analysis
   * that did not raise): the device has been read once and no file is written.
   */
  lemma UnknownFormatFailsAfterRead(p: Processor, duration: real, outputFile: string, format: string,
                                    analyzer: Option<SignalAnalyzer>, enableAnalysis: bool, enablePlotting: bool,
                                    env: CaptureEnv)
    requires p.sdr.Some? && env.read.Delivered? && format != "wav" && format != "raw"
    requires !AnalysisFails(env.read.samples, p.sampleRate, analyzer, enableAnalysis, enablePlotting)
    ensures var c := CaptureSignal(p, duration, outputFile, format, analyzer, enableAnalysis, enablePlotting, env);
      && c.result == Failure(InvalidFormat(format))
      && Reads(c.proc.sdr.value.calls) == Reads(p.sdr.value.calls) + 1
      && forall i :: 0 <= i < |c.steps| ==> !c.steps[i].Saved?
  {
    SaveIsLast(p, duration, outputFile, format, analyzer, enableAnalysis, enablePlotting, env);
  }
}

=== FILE: sniffer.dfy ===
/**
 * The command-line entry point (`simplex_sniffer.py`): argument checks, the
 * output and report file names, and one capture session from the processor's
 * construction to its cleanup and the process exit code.
 */
module Sniffer {
  import opened Wrappers
  import opened Text
  import opened SampleCodec
  import opened SignalAnalysis
  import opened SignalProcessor

  // ---------------------------------------------------------------------------
  // --freq validation
  // ---------------------------------------------------------------------------

  const MinFrequencyMHz: real := 30.0
  const MaxFrequencyMHz: real := 3000.0

  datatype FrequencyError =
      /** `ArgumentTypeError`: a number outside 30-3000 MHz. */
    | OutOfRange(freqMHz: real)
      /** `TypeError`: a string was compared with a number. */
    | NotComparable

  /** A Python value as it reaches the `type=` callback. */
  datatype PyValue = PyStr(text: string) | PyFloat(x: real)

  /**
   * `validate_frequency` as written: the chained comparison with the integer
   * bounds raises `TypeError` for a string and only checks a float.
   */
  function ValidateFrequencyAsWritten(v: PyValue): (r: Result<PyValue, FrequencyError>)
    ensures v.PyStr? ==> r == Failure(NotComparable)
    ensures v.PyFloat? ==> (r.Success? <==> MinFrequencyMHz <= v.x <= MaxFrequencyMHz)
    ensures r.Success? ==> r.value == v
  {
    match v
    case PyStr(_) => Failure(NotComparable)
    case PyFloat(x) => if MinFrequencyMHz <= x <= MaxFrequencyMHz then Success(v) else Failure(OutOfRange(x))
  }

  /**
   * argparse hands a `type=` callback the argument's text, so the as-written
   * check rejects every `--freq`, in range or not, and argparse exits with
   * status 2.
   */
  lemma EveryFrequencyRejectedAsWritten(text: string)
    ensures ValidateFrequencyAsWritten(PyStr(text)).Failure?
    ensures ValidateFrequencyAsWritten(PyStr("446.056")) == Failure(NotComparable)
  {
  }

  /** `validate_frequency` as intended: the value in MHz, accepted exactly when 30 <= f <= 3000. */
  function ValidateFrequency(freqMHz: real): (r: Result<real, FrequencyError>)
    ensures r.Success? <==> MinFrequencyMHz <= freqMHz <= MaxFrequencyMHz
    ensures r.Success? ==> r.value == freqMHz
    ensures r.Failure? ==> r.error == OutOfRange(freqMHz)
  {
    if MinFrequencyMHz <= freqMHz <= MaxFrequencyMHz then Success(freqMHz) else Failure(OutOfRange(freqMHz))
  }

  /** The corrected check accepts the documented examples' frequencies and refuses just outside the band. */
  lemma ValidateFrequencyExamples()
    ensures ValidateFrequency(446.056).Success?
    ensures ValidateFrequency(162.550).Success?
    ensures ValidateFrequency(30.0).Success? && ValidateFrequency(3000.0).Success?
    ensures ValidateFrequency(29.999) == Failure(OutOfRange(29.999))
    ensures ValidateFrequency(3000.001).Failure?
  {
  }

  // ---------------------------------------------------------------------------
  // File names
  // ---------------------------------------------------------------------------

  /** `simplex_capture_<freq, '.' as '_'>MHz_<timestamp>`: the default name without its extension. */
  function OutputStem(freqText: string, timestamp: string): string {
    "simplex_capture_" + ReplaceAll(freqText, ".", "_") + "MHz_" + timestamp
  }

  /**
   * The generated output name: the frequency's text with every '.' turned
   * into '_', then the timestamp, then the format as extension.
   */
  function DefaultOutputName(freqText: string, timestamp: string, format: string): (r: string)
    ensures |r| == 16 + |freqText| + 4 + |timestamp| + 1 + |format|
    ensures r[..16] == "simplex_capture_"
    ensures forall i :: 0 <= i < |freqText| ==>
      r[16 + i] == (if freqText[i] == '.' then '_' else freqText[i])
    ensures r[16 + |freqText|..16 + |freqText| + 4] == "MHz_"
    ensures r[16 + |freqText| + 4..16 + |freqText| + 4 + |timestamp|] == timestamp
    ensures r[|r| - |format| - 1..] == "." + format
  {
    ReplaceCharPointwise(freqText, '.', '_');
    var f := ReplaceAll(freqText, ".", "_");
    var head := "simplex_capture_" + f + "MHz_";
    var r := head + timestamp + ("." + format);
    assert r[..|head|] == head && r[|head|..|head| + |timestamp|] == timestamp;
    assert r[|r| - |format| - 1..] == "." + format;
    assert head[..16] == "simplex_capture_" && head[16 + |f|..] == "MHz_";
    assert forall i :: 0 <= i < |freqText| ==> head[16 + i] == f[i];
    r
  }

  /** No character of `s` is `c`. */
  predicate Lacks(s: string, c: char) {
    forall i :: 0 <= i < |s| ==> s[i] != c
  }

  /**
   * The report's name as written: every occurrence of `.<format>` in the
   * output name becomes `_report.txt`.
   */
  function ReportNameAsWritten(output: string, format: string): (r: string)
    ensures Lacks(output, '.') ==> r == output
  {
    DotlessNameUnchanged(output, format);
    ReplaceAll(output, "." + format, "_report.txt")
  }

  /** A name with no dot at all cannot hold `.<format>`, so the replacement leaves it alone. */
  lemma DotlessNameUnchanged(output: string, format: string)
    ensures Lacks(output, '.') ==> ReplaceAll(output, "." + format, "_report.txt") == output
  {
    if Lacks(output, '.') {
      PrefixWithoutDot(output, [], "." + format, "_report.txt");
      assert output + [] == output;
    }
  }

  /**
   * When the output name does not contain `.<format>`, the as-written report
   * name is the output name itself: the report is written over the capture.
   */
  lemma ReportOverwritesCapture()
    ensures ReportNameAsWritten("capture", "wav") == "capture"
  {
    assert Lacks("capture", '.');
  }

  /** The intended name puts the report beside a capture named without the extension. */
  lemma ReportBesideCapture()
    ensures ReportName("capture", "wav") == "capture" + "_report.txt"
  {
    assert Lacks("capture", '.');
  }

  /**
   * Every occurrence is replaced, not only the extension: `take.wav.wav`
   * gives two report suffixes, and the corrected name keeps that behaviour.
   */
  lemma ReportNameReplacesEvery()
    ensures ReportNameAsWritten("take" + ".wav" + ".wav", "wav") == "take" + "_report.txt" + "_report.txt"
    ensures ReportName("take" + ".wav" + ".wav", "wav") == "take" + "_report.txt" + "_report.txt"
  {
    assert "." + "wav" == ".wav";
    ReplaceTwice("take", ".wav", "_report.txt");
  }

  /** Two back-to-back occurrences after a prefix free of the pattern's first character are both replaced. */
  lemma ReplaceTwice(p: string, pat: string, rep: string)
    requires |pat| > 0
    requires forall i :: 0 <= i < |p| ==> p[i] != pat[0]
    ensures ReplaceAll(p + pat + pat, pat, rep) == p + rep + rep
  {
    assert p + pat + pat == p + (pat + pat);
    PrefixWithoutDot(p, pat + pat, pat, rep);
    ReplaceAllSuffix([], pat, rep);
    assert [] + pat == pat;
    assert (pat + pat)[..|pat|] == pat && (pat + pat)[|pat|..] == pat;
  }

  /** A prefix without the pattern's first character is copied through unchanged. */
  lemma {:induction false} PrefixWithoutDot(p: string, rest: string, pat: string, rep: string)
    requires |pat| > 0
    requires forall i :: 0 <= i < |p| ==> p[i] != pat[0]
    ensures ReplaceAll(p + rest, pat, rep) == p + ReplaceAll(rest, pat, rep)
    decreases |p|
  {
    if |p| > 0 {
      var s := p + rest;
      assert s[1..] == p[1..] + rest;
      PrefixWithoutDot(p[1..], rest, pat, rep);
      if |s| < |pat| {
        assert ReplaceAll(rest, pat, rep) == rest;
      } else {
        assert s[..|pat|][0] == p[0];
        assert ReplaceAll(s, pat, rep) == [p[0]] + ReplaceAll(p[1..] + rest, pat, rep);
        assert [p[0]] + (p[1..] + ReplaceAll(rest, pat, rep)) == p + ReplaceAll(rest, pat, rep);
      }
    } else {
      assert p + rest == rest;
    }
  }

  /**
   * The report's name as intended: the as-written replacement, except that
   * an output name holding no `.<format>` gets `_report.txt` appended
   * instead of being reused for the report.
   */
  function ReportName(output: string, format: string): (r: string)
    ensures r != output
    ensures ReportNameAsWritten(output, format) != output ==> r == ReportNameAsWritten(output, format)
    ensures Lacks(output, '.') ==> r == output + "_report.txt"
  {
    var asWritten := ReportNameAsWritten(output, format);
    if asWritten != output then asWritten else output + "_report.txt"
  }

  /**
   * With a timestamp free of dots, the default output name holds `.<format>`
   * only as its extension, so both the as-written and the intended report
   * name put `_report.txt` in place of that extension.
   */
  lemma ReportNameOfDefault(freqText: string, timestamp: string, format: string)
    requires Lacks(timestamp, '.')
    ensures ReportNameAsWritten(DefaultOutputName(freqText, timestamp, format), format)
         == OutputStem(freqText, timestamp) + "_report.txt"
    ensures ReportName(DefaultOutputName(freqText, timestamp, format), format)
         == OutputStem(freqText, timestamp) + "_report.txt"
  {
    var stem := OutputStem(freqText, timestamp);
    var f := ReplaceAll(freqText, ".", "_");
    ReplaceCharPointwise(freqText, '.', '_');
    assert stem == "simplex_capture_" + f + "MHz_" + timestamp;
    assert Lacks(stem, '.') by {
      forall i | 0 <= i < |stem| ensures stem[i] != '.' {
        if 16 <= i < 16 + |f| {
          assert stem[i] == f[i - 16];
        } else if 16 + |f| + 4 <= i {
          assert stem[i] == timestamp[i - 16 - |f| - 4];
        }
      }
    }
    var o := DefaultOutputName(freqText, timestamp, format);
    var ext := "." + format;
    assert o == stem + ext;
    ReplaceAllSuffix(stem, ext, "_report.txt");
    var r := stem + "_report.txt";
    assert r != o by {
      if |r| == |o| {
        assert r[|stem|] == '_' && o[|stem|] == '.';
      }
    }
  }

  // ---------------------------------------------------------------------------
  // The session
  // ---------------------------------------------------------------------------

  /** The command line, each option already converted by argparse except `--freq`. */
  datatype CommandLine = CommandLine(
    freq: string, gain: int, sampleRate: int, duration: int, output: Option<string>,
    format: string, filterRange: real, analyze: bool, plot: bool, deviceIndex: int)

  /** The arguments once argparse accepted them. */
  datatype Args = Args(
    freqMHz: real, gain: int, sampleRate: int, duration: int, output: Option<string>,
    format: string, filterRange: real, analyze: bool, plot: bool, deviceIndex: int)

  datatype ArgError = BadFrequency(text: string) | BadFormat(format: string)

  /**
   * argparse as written: the `--freq` callback receives the text and raises
   * `TypeError`, so every command line ends in a usage error (exit 2).
   */
  function ParseArgsAsWritten(cl: CommandLine, parseFloat: string -> Option<real>): (r: Result<Args, ArgError>)
    ensures r == Failure(BadFrequency(cl.freq))
  {
    EveryFrequencyRejectedAsWritten(cl.freq);
    if ValidateFrequencyAsWritten(PyStr(cl.freq)).Failure? then Failure(BadFrequency(cl.freq))
    else ParseArgs(cl, parseFloat)
  }

  /**
   * argparse with the intended frequency check: `--freq` must read as a
   * number in 30-3000 MHz and `--format` must be one of its two choices.
   */
  function ParseArgs(cl: CommandLine, parseFloat: string -> Option<real>): (r: Result<Args, ArgError>)
    ensures r.Success? <==>
      && parseFloat(cl.freq).Some? && ValidateFrequency(parseFloat(cl.freq).value).Success?
      && (cl.format == "wav" || cl.format == "raw")
    ensures r.Success? ==>
      && r.value.freqMHz == parseFloat(cl.freq).value && r.value.format == cl.format
      && r.value.sampleRate == cl.sampleRate && r.value.gain == cl.gain && r.value.duration == cl.duration
      && r.value.output == cl.output && r.value.filterRange == cl.filterRange
      && r.value.analyze == cl.analyze && r.value.plot == cl.plot && r.value.deviceIndex == cl.deviceIndex
  {
    match parseFloat(cl.freq)
    case None => Failure(BadFrequency(cl.freq))
    case Some(x) =>
      if ValidateFrequency(x).Failure? then Failure(BadFrequency(cl.freq))
      else if cl.format != "wav" && cl.format != "raw" then Failure(BadFormat(cl.format))
      else Success(Args(x, cl.gain, cl.sampleRate, cl.duration, cl.output, cl.format,
                        cl.filterRange, cl.analyze, cl.plot, cl.deviceIndex))
  }

  /**
   * What the world answers during a session: how argparse reads a float and
   * how Python prints one, the two clock readings, the driver's behaviour,
   * and whether the report file could be written.
   */
  datatype SessionEnv = SessionEnv(
    parseFloat: string -> Option<real>, floatRepr: real -> string,
    nameTimestamp: string, init: InitResponse, capture: CaptureEnv,
    reportTimestamp: string, reportWriteOk: bool)

  /** A written report: its file name and what `generate_report` wrote from, the analyzer and the clock. */
  datatype Report = Report(name: string, analyzer: SignalAnalyzer, generatedAt: string)

  /**
   * A finished run of the tool. `processor` is the processor after cleanup;
   * `leaked` is a handle that opened but was never closed.
   */
  datatype Session = Session(
    exitCode: int, output: string, processor: Option<Processor>, leaked: Option<Device>,
    analyzer: Option<SignalAnalyzer>, capture: Option<Capture>, report: Option<Report>)

  /** The output file: `--output` unless it is missing or empty, else the generated name. */
  function ChooseOutput(args: Args, env: SessionEnv): (name: string)
    ensures args.output.Some? && args.output.value != "" ==> name == args.output.value
    ensures args.output.None? || args.output.value == "" ==>
      name == DefaultOutputName(env.floatRepr(args.freqMHz), env.nameTimestamp, args.format)
  {
    if args.output.None? || args.output.value == "" then
      DefaultOutputName(env.floatRepr(args.freqMHz), env.nameTimestamp, args.format)
    else args.output.value
  }

  /** The analyzer `main` builds: one when `--analyze` or `--plot` is given, with the bandwidth in Hz. */
  function MakeAnalyzer(args: Args): (a: Option<SignalAnalyzer>)
    ensures a.Some? <==> args.analyze || args.plot
    ensures a.Some? ==>
      a.value.sampleRate == args.sampleRate && a.value.filterBandwidth == args.filterRange * 1000.0
      && |a.value.analysisResults| == 0
  {
    if args.analyze || args.plot then Some(NewAnalyzer(args.sampleRate, args.filterRange * 1000.0)) else None
  }

  /** How a session ends once the capture returned or raised: the exit status and any report written. */
  datatype Ending = Ending(exitCode: int, report: Option<Report>)

  /**
   * The end of `main` after `capture_signal`: on success, the report (when
   * an analyzer exists) and exit 0, or exit 1 if the report cannot be
   * written; the interrupt's `SystemExit(0)` passes both handlers and exits
   * 0; any other error exits 1.
   */
  function Conclude(output: string, format: string, analyzer: Option<SignalAnalyzer>,
                    result: Result<seq<Complex>, CaptureError>, env: SessionEnv): (e: Ending)
    ensures e.exitCode == 0 <==>
      (result.Success? && (analyzer.None? || env.reportWriteOk)) || result == Failure(Interrupted)
    ensures e.exitCode == 0 || e.exitCode == 1
    ensures e.report.Some? <==> result.Success? && analyzer.Some? && env.reportWriteOk
    ensures e.report.Some? ==>
      && e.report.value.name == ReportName(output, format) && e.report.value.name != output
      && (ReportNameAsWritten(output, format) != output ==> e.report.value.name == ReportNameAsWritten(output, format))
      && e.report.value.analyzer == analyzer.value && e.report.value.generatedAt == env.reportTimestamp
  {
    match result
    case Success(_) =>
      if analyzer.None? then Ending(0, None)
      else if env.reportWriteOk then Ending(0, Some(Report(ReportName(output, format), analyzer.value, env.reportTimestamp)))
      else Ending(1, None)
    case Failure(e) => Ending(if e.Interrupted? then 0 else 1, None)
  }

  /**
   * With `--analyze`, the delivered buffer makes the analysis raise: it is
   * empty or the analyzer's rate is 0 (`detect_signal_peaks`), or, with
   * `--plot`, the processor's rate is 0 or the buffer too short to plot.
   */
  predicate AnalysisRaises(analyze: bool, plot: bool, analyzerRate: int, processorRate: int, env: SessionEnv)
    requires env.capture.read.Delivered?
  {
    && analyze
    && (|| |env.capture.read.samples| == 0 || analyzerRate == 0
        || (plot && PlotFails(env.capture.read.samples, processorRate)))
  }

  /** The session's condition is the processor's, read off the command line's analyzer. */
  lemma RaisesIffFails(args: Args, processorRate: int, env: SessionEnv)
    ensures env.capture.read.Delivered? ==>
      && (AnalysisRaises(args.analyze, args.plot, args.sampleRate, processorRate, env) <==>
            AnalysisFails(env.capture.read.samples, processorRate, MakeAnalyzer(args), args.analyze, args.plot))
      && (PeaksLogged(env.capture.read.samples, MakeAnalyzer(args), args.analyze) <==>
            args.analyze && |env.capture.read.samples| > 0 && args.sampleRate != 0)
  {
  }

  /** Everything after the processor exists: capture, report, cleanup. */
  function RunCapture(args: Args, output: string, p: Processor, env: SessionEnv): (s: Session)
    requires p.sdr.Some? && Reads(p.sdr.value.calls) == 0 && Closes(p.sdr.value.calls) == 0
    requires args.format == "wav" || args.format == "raw"
    ensures s.processor.Some? && s.processor.value.sdr.Some? && s.leaked.None? && s.capture.Some?
    ensures Reads(s.processor.value.sdr.value.calls) == 1 && Closes(s.processor.value.sdr.value.calls) == 1
    ensures !s.processor.value.isCapturing
    ensures s.analyzer == MakeAnalyzer(args) && s.output == output
    ensures !s.capture.value.result.Failure? || !s.capture.value.result.error.InvalidFormat?
    ensures s.report.Some? ==> s.analyzer.Some? && s.capture.value.result.Success? && s.report.value.name != output
    ensures s.report.Some? ==> s.report.value.analyzer == s.analyzer.value && s.report.value.generatedAt == env.reportTimestamp
    ensures s.exitCode == 0 <==>
      || (&& env.capture.read.Delivered? && !AnalysisRaises(args.analyze, args.plot, args.sampleRate, p.sampleRate, env)
          && Saveable(args.format, p.sampleRate) && env.capture.writeOk && ((!args.analyze && !args.plot) || env.reportWriteOk))
      || env.capture.read.ReadInterrupted?
    ensures s.exitCode == 0 || s.exitCode == 1
    ensures HasAnalysis(s.capture.value.steps) <==>
      env.capture.read.Delivered? && args.analyze && |env.capture.read.samples| > 0 && args.sampleRate != 0
    ensures HasPlots(s.capture.value.steps) <==> HasAnalysis(s.capture.value.steps) && args.plot && p.sampleRate != 0
  {
    var analyzer := MakeAnalyzer(args);
    var c := CaptureSignal(p, args.duration as real, output, args.format, analyzer, args.analyze, args.plot, env.capture);
    AnalysisGate(p, args.duration as real, output, args.format, analyzer, args.analyze, args.plot, env.capture);
    RaisesIffFails(args, p.sampleRate, env);
    var closed := Cleanup(c.proc);
    var e := Conclude(output, args.format, analyzer, c.result, env);
    Session(e.exitCode, output, Some(closed), None, analyzer, Some(c), e.report)
  }

  /**
   * `main`: parse, name the output, build the processor and (if asked) the
   * analyzer, capture, write the report, clean up, and exit.
   */
  function Main(cl: CommandLine, env: SessionEnv): (s: Session)
    ensures s.exitCode == 0 || s.exitCode == 1 || s.exitCode == 2
    ensures s.exitCode == 2 <==> ParseArgs(cl, env.parseFloat).Failure?
    ensures s.exitCode == 2 ==> s.processor.None? && s.leaked.None? && s.capture.None? && s.analyzer.None?
    ensures s.processor.Some? <==> ParseArgs(cl, env.parseFloat).Success? && env.init.InitOk?
    ensures s.exitCode == 0 <==>
      && ParseArgs(cl, env.parseFloat).Success? && env.init.InitOk?
      && (|| (&& env.capture.read.Delivered? && !AnalysisRaises(cl.analyze, cl.plot, cl.sampleRate, cl.sampleRate, env)
              && Saveable(cl.format, cl.sampleRate) && env.capture.writeOk && ((!cl.analyze && !cl.plot) || env.reportWriteOk))
          || env.capture.read.ReadInterrupted?)
    ensures s.processor.Some? ==>
      && s.processor.value.sdr.Some?
      && Reads(s.processor.value.sdr.value.calls) == 1 && Closes(s.processor.value.sdr.value.calls) == 1
    ensures s.capture.Some? <==> s.processor.Some?
    ensures s.analyzer.Some? <==> s.processor.Some? && (cl.analyze || cl.plot)
    ensures s.capture.Some? ==>
      && (HasAnalysis(s.capture.value.steps) <==>
            env.capture.read.Delivered? && cl.analyze && |env.capture.read.samples| > 0 && cl.sampleRate != 0)
      && (HasPlots(s.capture.value.steps) <==> HasAnalysis(s.capture.value.steps) && cl.plot)
    ensures s.analyzer.Some? ==>
      && s.analyzer.value.sampleRate == cl.sampleRate && s.analyzer.value.filterBandwidth == cl.filterRange * 1000.0
      && |s.analyzer.value.analysisResults| == 0
    ensures s.capture.Some? ==> !(s.capture.value.result.Failure? && s.capture.value.result.error.InvalidFormat?)
    ensures s.report.Some? ==> s.analyzer.Some? && s.capture.value.result.Success? && s.report.value.name != s.output
    ensures s.report.Some? ==> s.report.value.analyzer == s.analyzer.value && s.report.value.generatedAt == env.reportTimestamp
  {
    match ParseArgs(cl, env.parseFloat)
    case Failure(_) => Session(2, "", None, None, None, None, None)
    case Success(args) =>
      var output := ChooseOutput(args, env);
      match NewProcessor(args.deviceIndex, args.sampleRate, args.freqMHz * 1000000.0, args.gain, env.init)
      case Failure(InitFailure(handle)) => Session(1, output, None, handle, None, None, None)
      case Success(p) => RunCapture(args, output, p, env)
  }

  /**
   * A handle that opened but failed to configure is never closed: the
   * processor was never bound, so the cleanup in `finally` is skipped.
   */
  lemma InitFailureLeaksHandle(cl: CommandLine, env: SessionEnv)
    requires ParseArgs(cl, env.parseFloat).Success? && env.init.ConfigureFails?
    ensures var s := Main(cl, env);
      s.exitCode == 1 && s.processor.None? && s.leaked.Some? && Closes(s.leaked.value.calls) == 0
  {
  }

  /**
   * Nothing ever adds to the analyzer's results, so every report the tool
   * writes ends with the no-results line, seven lines in all.
   */
  lemma SessionReportHasNoResults(cl: CommandLine, env: SessionEnv)
    requires SingleLine(env.reportTimestamp) && SingleLine(env.floatRepr(cl.filterRange * 1000.0))
    ensures var s := Main(cl, env);
      s.report.Some? ==>
        var lines := SplitLines(GenerateReport(s.report.value.analyzer, s.report.value.generatedAt, env.floatRepr));
        |lines| == 7 && lines[6] == NoResultsLine
  {
    SessionReportInputs(cl, env);
    FreshSessionReport(Main(cl, env), cl, env);
  }

  /** A session's report is generated from a fresh analyzer and the report clock. */
  lemma SessionReportInputs(cl: CommandLine, env: SessionEnv)
    ensures var s := Main(cl, env);
      s.report.Some? ==>
        && s.report.value.analyzer == NewAnalyzer(cl.sampleRate, cl.filterRange * 1000.0)
        && s.report.value.generatedAt == env.reportTimestamp
  {
  }

  lemma FreshSessionReport(s: Session, cl: CommandLine, env: SessionEnv)
    requires SingleLine(env.reportTimestamp) && SingleLine(env.floatRepr(cl.filterRange * 1000.0))
    requires s.report.Some? ==>
      && s.report.value.analyzer == NewAnalyzer(cl.sampleRate, cl.filterRange * 1000.0)
      && s.report.value.generatedAt == env.reportTimestamp
    ensures s.report.Some? ==>
      var lines := SplitLines(GenerateReport(s.report.value.analyzer, s.report.value.generatedAt, env.floatRepr));
      |lines| == 7 && lines[6] == NoResultsLine
  {
    if s.report.Some? {
      FreshReportHasNoResults(cl.sampleRate, cl.filterRange * 1000.0, env.reportTimestamp, env.floatRepr);
    }
  }
}

=== FILE: text.dfy ===
/**
 * The string operations of Python that the capture tool relies on:
 * `str.replace`, `str(int)`, `"c" * n`, and newline-terminated text files.
 */
module Text {

  /** `pat` occurs in `s` starting at index `i`. */
  predicate OccursAt(s: string, pat: string, i: nat) {
    i + |pat| <= |s| && s[i..i + |pat|] == pat
  }

  ghost predicate Contains(s: string, pat: string) {
    exists i: nat :: OccursAt(s, pat, i)
  }

  /**
   * Python's `s.replace(pat, rep)` for a non-empty `pat`: scanning left to
   * right, every non-overlapping occurrence of `pat` is replaced by `rep`.
   */
  function ReplaceAll(s: string, pat: string, rep: string): (r: string)
    requires |pat| > 0
    ensures |pat| == |rep| ==> |r| == |s|
    decreases |s|
  {
    if |s| < |pat| then s
    else if s[..|pat|] == pat then rep + ReplaceAll(s[|pat|..], pat, rep)
    else [s[0]] + ReplaceAll(s[1..], pat, rep)
  }

  /** A string with no occurrence of the pattern comes back unchanged. */
  lemma {:induction false} ReplaceAllAbsent(s: string, pat: string, rep: string)
    requires |pat| > 0 && !Contains(s, pat)
    ensures ReplaceAll(s, pat, rep) == s
    decreases |s|
  {
    if |s| >= |pat| {
      assert !OccursAt(s, pat, 0);
      assert s[..|pat|] != pat;
      assert !Contains(s[1..], pat) by {
        forall i: nat | OccursAt(s[1..], pat, i) ensures false {
          assert s[i + 1..i + 1 + |pat|] == s[1..][i..i + |pat|];
          assert OccursAt(s, pat, i + 1);
        }
      }
      ReplaceAllAbsent(s[1..], pat, rep);
    }
  }

  /**
   * Replacing one character by another is a pointwise map: same length, and
   * each position holds the replacement exactly where the original held `from`.
   */
  lemma {:induction false} ReplaceCharPointwise(s: string, from: char, to: char)
    ensures |ReplaceAll(s, [from], [to])| == |s|
    ensures forall i :: 0 <= i < |s| ==>
      ReplaceAll(s, [from], [to])[i] == (if s[i] == from then to else s[i])
    decreases |s|
  {
    if |s| > 0 {
      ReplaceCharPointwise(s[1..], from, to);
      var r := ReplaceAll(s, [from], [to]);
      var tail := ReplaceAll(s[1..], [from], [to]);
      assert r == (if s[0] == from then [to] else [s[0]]) + tail;
      forall i | 0 <= i < |s| ensures r[i] == (if s[i] == from then to else s[i]) {
        if i > 0 { assert r[i] == tail[i - 1] && s[i] == s[1..][i - 1]; }
      }
    }
  }

  /**
   * When the pattern's first character never appears in `p`, the only
   * occurrence of `pat` in `p + pat` is the final one.
   */
  lemma {:induction false} ReplaceAllSuffix(p: string, pat: string, rep: string)
    requires |pat| > 0
    requires forall i :: 0 <= i < |p| ==> p[i] != pat[0]
    ensures ReplaceAll(p + pat, pat, rep) == p + rep
    decreases |p|
  {
    var s := p + pat;
    if |p| == 0 {
      assert s == pat && s[|pat|..] == [];
    } else {
      assert s[..|pat|][0] == p[0] != pat[0];
      assert s[1..] == p[1..] + pat;
      ReplaceAllSuffix(p[1..], pat, rep);
      assert ReplaceAll(s, pat, rep) == [p[0]] + ReplaceAll(s[1..], pat, rep);
      assert [p[0]] + (p[1..] + rep) == p + rep;
    }
  }

  /** `c * n` for a one-character string `c`. */
  function Repeat(c: char, n: nat): (r: string)
    ensures |r| == n && forall i :: 0 <= i < n ==> r[i] == c
  {
    if n == 0 then [] else [c] + Repeat(c, n - 1)
  }

  predicate IsDigit(c: char) {
    '0' <= c <= '9'
  }

  predicate AllDigits(s: string) {
    forall i :: 0 <= i < |s| ==> IsDigit(s[i])
  }

  function DigitChar(d: nat): (c: char)
    requires d < 10
    ensures IsDigit(c) && (c as int) - ('0' as int) == d
  {
    (('0' as int) + d) as char
  }

  /** Python's `str(n)` for a non-negative integer: decimal, no leading zero. */
  function NatToString(n: nat): (r: string)
    ensures |r| > 0 && AllDigits(r)
    ensures |r| > 1 ==> r[0] != '0'
  {
    if n < 10 then [DigitChar(n)] else NatToString(n / 10) + [DigitChar(n % 10)]
  }

  /** The value of a string of decimal digits. */
  function ParseDigits(s: string): nat
    requires AllDigits(s)
  {
    if |s| == 0 then 0
    else ParseDigits(s[..|s| - 1]) * 10 + ((s[|s| - 1] as int) - ('0' as int))
  }

  lemma {:induction false} ParseNatToString(n: nat)
    ensures ParseDigits(NatToString(n)) == n
  {
    if n >= 10 {
      var s := NatToString(n);
      assert s[..|s| - 1] == NatToString(n / 10);
      ParseNatToString(n / 10);
    }
  }

  /** Python's `str(i)` for an integer: a minus sign, then the digits of its magnitude. */
  function IntToString(i: int): (r: string)
    ensures i >= 0 ==> AllDigits(r) && ParseDigits(r) == i
    ensures i < 0 ==> |r| > 1 && r[0] == '-' && AllDigits(r[1..]) && ParseDigits(r[1..]) == -i
    ensures i >= 0 ==> |r| > 0 && (|r| > 1 ==> r[0] != '0')
    ensures i < 0 ==> r[1] != '0'
  {
    if i < 0 then
      ParseNatToString(-i);
      "-" + NatToString(-i)
    else
      ParseNatToString(i);
      NatToString(i)
  }

  /** No character of `s` is a line break. */
  predicate SingleLine(s: string) {
    forall i :: 0 <= i < |s| ==> s[i] != '\n'
  }

  /** Lines written one after another, each followed by `"\n"`. */
  function ConcatLines(lines: seq<string>): (r: string)
  {
    if |lines| == 0 then "" else lines[0] + "\n" + ConcatLines(lines[1..])
  }

  /** Index of the first line break in `s`, or `|s|` when there is none. */
  function LineEnd(s: string): (k: nat)
    ensures k <= |s|
    ensures k < |s| ==> s[k] == '\n'
    ensures SingleLine(s[..k])
  {
    if |s| == 0 || s[0] == '\n' then 0
    else
      var k := LineEnd(s[1..]);
      assert s[..k + 1] == [s[0]] + s[1..][..k];
      k + 1
  }

  /**
   * Reads a text back as its lines: the pieces between line breaks, the
   * breaks dropped; a final piece without a break is a line too.
   */
  function SplitLines(text: string): seq<string>
    decreases |text|
  {
    if |text| == 0 then []
    else
      var k := LineEnd(text);
      if k == |text| then [text] else [text[..k]] + SplitLines(text[k + 1..])
  }

  lemma {:induction false} LineEndAfter(a: string, b: string)
    requires SingleLine(a)
    ensures LineEnd(a + "\n" + b) == |a|
    decreases |a|
  {
    if |a| > 0 {
      assert (a + "\n" + b)[1..] == a[1..] + "\n" + b;
      LineEndAfter(a[1..], b);
    }
  }

  /** Writing single-line strings as lines and reading them back gives the same lines. */
  lemma {:induction false} SplitConcatLines(lines: seq<string>)
    requires forall i :: 0 <= i < |lines| ==> SingleLine(lines[i])
    ensures SplitLines(ConcatLines(lines)) == lines
  {
    if |lines| > 0 {
      var rest := ConcatLines(lines[1..]);
      var text := ConcatLines(lines);
      assert text == lines[0] + "\n" + rest;
      LineEndAfter(lines[0], rest);
      assert text[..|lines[0]|] == lines[0];
      assert text[|lines[0]| + 1..] == rest;
      SplitConcatLines(lines[1..]);
    }
  }

  lemma {:induction false} ConcatLinesAppend(a: seq<string>, b: seq<string>)
    ensures ConcatLines(a + b) == ConcatLines(a) + ConcatLines(b)
  {
    if |a| > 0 {
      assert (a + b)[1..] == a[1..] + b;
      ConcatLinesAppend(a[1..], b);
    } else {
      assert a + b == b;
    }
  }
}

=== FILE: wrappers.dfy ===
/** Failure-carrying wrappers shared by every module of the model. */
module Wrappers {

  /** An optional value: Python's `None` versus a present object. */
  datatype Option<+T> = None | Some(value: T)

  /** The outcome of an operation that either returns a value or raises an exception. */
  datatype Result<+T, +E> = Success(value: T) | Failure(error: E)
}
